=== FILE: README.md ===
# Maintenance Genie backend: a Dafny model of its request handlers

The Maintenance Genie backend is an Express/Prisma service. This project models the decision logic of five of its parts as pure step functions. Each takes the store, the request's inputs and the external calls (as parameters) and returns the reply together with the new store.

- **OTP registration and password reset** (`Registration`). A pending-registration table keyed by email holds an OTP and its expiry. It gates the creation of a user. The flow runs NONE → PENDING → VERIFIED (email only) → COMPLETE (name and password). Login and the cookie-based password reset are modelled too.
- **Payment reconciliation** (`Payments`). The provider webhook dispatches on the event type. A succeeded payment upgrades the user, creates a subscription and creates a payment transaction linked to it. The module also models the JavaScript `Date` arithmetic of `calculateSubscriptionEndDate` and the validation part of `createPaymentIntent`.
- **Admin operations** (`Admin`). These are admin login and password change, detail update, listing, deletion, invitation, user counting, suspension and activation, and the support-mail status toggle.
- **Item creation with enrichment** (`Items`). The item is created first. A language-model completion then adds service intervals and, for a subscribed request, forum suggestions.
- **Request guards** (`Middleware`). These are `authUser` (bearer header), `verifyUser` and `verifyAdmin` (token cookie).

Shared modules:

- `Common` holds `Option`, JSON body values (`Value`: missing, a number or a string) with JavaScript truthiness, a one-character `split` with its `join`, and their round trips.
- `Table` holds the queries: find the first match, find all, update all, count.
- `Calendar` holds (year, zero-based month, day) dates with `Date`'s day-overflow normalisation.
- `Store` holds the tables, the shared id counter `nextId` and the store invariant `Valid`: ids below the counter, user ids unique, user emails unique. It also holds the request cookies and the `KeyReader`, which says how Prisma reads an id given as a string.

External calls become parameters:

- the clock is `now` in milliseconds, or `today` as a date;
- bcrypt's `hash` and `compare`;
- JWT `sign` and `verify`;
- Stripe's signature check, as the parsed event or nothing;
- the provider's client secret;
- the two completion texts;
- the email validator and the random invitation password and OTP;
- whether a cookie parser filled `req.cookies` (`parsed`). The application as wired mounts none;
- how Prisma reads a string id (`KeyReader`), and how Stripe writes an id into metadata (`stringify`).

A call that throws inside a handler's `try` becomes that handler's 500 (or 404 for Prisma's P2025).

## Model

| member | source | states |
|---|---|---|
| Registration.RegisterUserStep1 | modules/user/user.controller.js:47-107 | Missing email gives 400. A registered email gives 400 and the store is unchanged. A live pending OTP (`now <= expiresAt`) gives 400 and is neither replaced nor re-sent. An expired or absent one is replaced by exactly one record with expiry now + 15 minutes. |
| Registration.VerifyOtp | modules/user/user.controller.js:108-170 | Checks run in order: missing fields (a falsy code, `0` included), no pending record, expiry (strict `>`), code mismatch under `!==` (a code sent as a JSON number never matches), then the create, which fails exactly when the email is already registered. Every failure leaves the store unchanged, and an expired record asks for a resend whatever code is sent. Success appends one user with only the email set, deletes the pending record and returns claims {userId, email}. |
| Registration.RegisterUserStep3 | modules/user/user.controller.js:171-224 | Each outcome is characterised in check order: no token 400, a rejected token 401, a falsy name or password 400, a text password under 8 characters 400, a numeric password 500 (its hash throws), a token without an email claim 500, an unregistered email 400. With a valid token, a name, an 8-character password and a registered email, registration succeeds. Success changes only the name and password of that email's user and returns its id. |
| Registration.CheckCredentials | modules/user/user.controller.js:227-246 | Each rejection is characterised exactly, in check order. A falsy email or password gives 400 and an unregistered email 400. A missing stored hash or a password that is not a string gives 500, because bcrypt's compare throws. A text password that does not match gives 400. The check accepts exactly a non-empty text password matching the stored hash of a registered email. |
| Registration.AuthenticateUserAsWritten | modules/user/user.controller.js:227-261 | As written, login never succeeds: correct credentials reach the undefined `generateToken` and get a 500. |
| Registration.AuthenticateUser | modules/user/user.controller.js:227-261 | Corrected login: it succeeds exactly when the credentials check out, issues claims {userId, email, role} and sets the `token` cookie. |
| Registration.ForgotPasswordOtpSend | modules/user/user.controller.js:275-302 | An OTP is issued exactly for a registered email and set as the `otp` cookie. It is mailed exactly when the user has a name. The store never changes. |
| Registration.ForgotPasswordOtpSendCorrected | modules/user/user.controller.js:275-302 | Same reply as the handler, with the `email` cookie that the reset reads also set. |
| Registration.MatchForgotPasswordOtp | modules/user/user.controller.js:304-320 | A falsy code gives 400 before any cookie is read. Without a cookie parser a truthy code gives 500. With one, `isOtpValid` is set exactly when the code is the text of the `otp` cookie. |
| Registration.ResetPassword | modules/user/user.controller.js:322-353 | Without a cookie parser every call gives 500. With one: no `isOtpValid` cookie gives 400, and a text password under 8 characters 400. A missing or numeric password, a missing `email` cookie or an unknown email give 500. It succeeds exactly with a text password of at least 8 characters and a registered `email` cookie. Then only that user's password changes, to its hash, and the otp, email and isOtpValid cookies are cleared. Otherwise nothing changes. |
| RegistrationProofs.Step1KeepsConsistent | modules/user/user.controller.js:56-97 | Step 1 keeps the registration invariant: the store is valid, no email is both pending and registered, and every pending OTP is a generated four-digit code. |
| RegistrationProofs.VerifyKeepsConsistent | modules/user/user.controller.js:138-146 | OTP verification keeps the registration invariant. |
| RegistrationProofs.Step3KeepsConsistent | modules/user/user.controller.js:207-214 | Step 3 keeps the registration invariant. |
| RegistrationProofs.Step1Phases | modules/user/user.controller.js:56-97 | When step 1 issues an OTP, the email goes from NONE (or an expired PENDING) to PENDING. No other email's phase changes. |
| RegistrationProofs.VerifyPhases | modules/user/user.controller.js:119-146 | Verification moves an email from PENDING to VERIFIED, and only that email. |
| RegistrationProofs.Step3Completes | modules/user/user.controller.js:199-214 | Step 3 leaves the token's email COMPLETE; before it, the email was VERIFIED or already COMPLETE. |
| RegistrationProofs.RegisterThenVerify | modules/user/user.controller.js:91-146 | Step 1 followed by the right code in time leaves exactly one user with that email and no password. |
| RegistrationProofs.RegisterThenWrongCode | modules/user/user.controller.js:131-136 | Step 1 followed by a wrong code leaves the store as step 1 left it. |
| RegistrationProofs.RegisterThenNumericCode | modules/user/user.controller.js:110-136 | Step 1 followed by the issued code sent as a non-zero JSON number gives "Invalid OTP" and leaves the store as step 1 left it. |
| RegistrationProofs.VerifyThenComplete | modules/user/user.controller.js:138-221 | The token OTP verification returns, used with a name and an 8-character password, completes step 3 for the new row, whose email becomes COMPLETE. |
| RegistrationProofs.Step1KeepsPasswordsNamed | modules/user/user.controller.js:47-107 | Every stored password belongs to a named user, before and after step 1. |
| RegistrationProofs.VerifyKeepsPasswordsNamed | modules/user/user.controller.js:138-143 | Same invariant across OTP verification. |
| RegistrationProofs.Step3KeepsPasswordsNamed | modules/user/user.controller.js:207-214 | Same invariant across step 3, which sets name and password together. |
| RegistrationProofs.LoginOnlyWhenComplete | modules/user/user.controller.js:235-246 | The corrected login succeeds only for a COMPLETE email. |
| RegistrationProofs.VerifiedCannotLogIn | modules/user/user.controller.js:138-143 | A user who has only verified the OTP has no password, so the corrected login does not let them in. |
| RegistrationProofs.LoginAsWrittenRejectsCorrectCredentials | modules/user/user.controller.js:249 | For every accepted credential pair, the as-written login answers 500 and the corrected one 200. |
| RegistrationProofs.LoginAsWrittenCounterexample | modules/user/user.controller.js:249 | A concrete store and password for which the as-written login answers 500. |
| RegistrationProofs.ResetFlowNeedsEmailCookie | modules/user/user.controller.js:288-337 | With a cookie parser mounted, send, match and reset run in order from a jar without an `email` cookie. The OTP matches but the reset fails with 500. |
| RegistrationProofs.ForgedCookiesResetPassword | modules/user/user.controller.js:324-340 | With a cookie parser mounted, client-set `isOtpValid` and `email` cookies reset any registered user's password without an OTP. |
| RegistrationProofs.ResetFlowSucceeds | modules/user/user.controller.js:288-344 | With a cookie parser mounted and the corrected sender, send, match and reset complete. The user's password becomes the new hash and the reset cookies are gone. |
| RegistrationProofs.ResetFlowAsWired | modules/user/user.controller.js:304-344 | As the application is wired, with no cookie parser, the OTP is still issued, but matching it gives 500 and every reset gives 500 with the store unchanged. |
| Payments.CalculateSubscriptionEndDate | modules/paymnet/stripe.controller.js:161-171 | The end date is a valid date strictly after the start. |
| Payments.HalfYearlyEnd | modules/paymnet/stripe.controller.js:164-165 | For "HalfYearly" the end is `start.day - 1` days after the first of the month six months on. That is the same day, or at most three days into the following month when that month is shorter. |
| Payments.YearlyEnd | modules/paymnet/stripe.controller.js:166-168 | For any other plan the end is the same month and day a year on, except that 29 February becomes 1 March. |
| Calendar.MakeDateIsDayOffset | modules/paymnet/stripe.controller.js:161-171 | `Date`'s day-overflow normalisation equals counting days from the first of the month. |
| Payments.CreatePaymentIntent | modules/paymnet/stripe.controller.js:8-51 | A missing field gives 400 and an unknown service 404. Past those, a provider failure gives 500 and the intent is created exactly when the provider returns a secret. The metadata carries the service id and the caller's id as the strings the provider stores, and the service's plan. The user id is absent exactly when the caller has none. No local state is written. |
| Payments.HandlePaymentIntentSucceeded | modules/paymnet/stripe.controller.js:87-148 | Nothing changes when the metadata user id is falsy, when Prisma rejects it as an id, or when no user has it. Each of these is one outcome and happens exactly then. The user is upgraded to premium before the service lookup. A missing, rejected or unknown service id leaves the upgrade without a subscription. Otherwise one subscription and one transaction are appended, linked, with fresh ids and the ids Prisma read. |
| Payments.HandlePaymentIntentFailed | modules/paymnet/stripe.controller.js:150-159 | The failed-payment handler changes nothing. |
| Payments.HandleWebhook | modules/paymnet/stripe.controller.js:53-84 | A failed signature check gives 400 and changes nothing. Any verified event gets 200. Only a succeeded event changes the store. |
| PaymentsProofs.SucceededTouchesOnlyThePayer | modules/paymnet/stripe.controller.js:96-99 | Only the paying user's role and subscription flag change. |
| PaymentsProofs.WebhookKeepsValid | modules/paymnet/stripe.controller.js:53-148 | The webhook keeps the store invariant. |
| PaymentsProofs.SubscribedAddsOneLinkedPair | modules/paymnet/stripe.controller.js:115-141 | On full success exactly one subscription (status premium, end date from the plan, after the start) and exactly one transaction pointing at it are added. Earlier rows are kept. |
| PaymentsProofs.AnonymousIntentNeverReconciles | modules/paymnet/stripe.controller.js:26-45 | An intent created without a caller carries no user id, so its succeeded event changes nothing. |
| PaymentsProofs.PaidIntentSubscribes | modules/paymnet/stripe.controller.js:26-141 | When Prisma reads back the strings the provider wrote (a text id column), an intent created for a known caller and service subscribes that caller once paid, with the service's price and plan. |
| PaymentsProofs.ReplayedEventSubscribesAgain | modules/paymnet/stripe.controller.js:87-141 | A redelivered succeeded event adds a second subscription and a second transaction for the same user. |
| PaymentsProofs.IntegerKeyNeverReconciles | modules/paymnet/stripe.controller.js:87-146 | When Prisma rejects every string as an id (an integer id column), no delivered event changes the store, and a succeeded event with a user id ends with that id rejected. |
| Admin.LoginAdmin | modules/admin/admin.controller.js:27-87 | The first missing field is reported, email before password. No ADMIN with that email gives 404. For a found admin, each remaining outcome is characterised exactly: 500 when no hash is stored or the password is not a string, 401 when the text password does not match, and login when it does. Success issues claims {userId, email, role, type "ADMIN"} of that admin. |
| Admin.ChangeAdminPassword | modules/admin/admin.controller.js:89-141 | No `req.user` gives 500, missing fields 400, a missing user id 500 and an unknown user 404. For a found user, each outcome is characterised exactly: 401 for a text old password that does not match, and 500 for a missing hash, a non-string old password, or a non-string new password once the old one matches. Otherwise the password is changed. Failures write nothing; success changes only that user's password, to the hash of the new one. |
| Admin.UpdateAdminDetails | modules/admin/admin.controller.js:200-241 | No caller id gives 400. Neither name nor email gives 400 with no write. A non-admin id gives 404. Success writes only the truthy fields of only that admin's row. For an admin that is found, the reply is 500 exactly when the new email already belongs to another row, and otherwise the details are updated. |
| Admin.GetAllAdmins | modules/admin/admin.controller.js:243-269 | Lists exactly the ADMIN rows, each as many times as it occurs in the table, and no other row. An empty list is a 404, given exactly when there is no ADMIN row. |
| Admin.GetAllUsers | modules/admin/admin.controller.js:342-369 | Lists exactly the USER rows, each as many times as it occurs in the table, and no other row. An empty list is a 404, given exactly when there is no USER row. |
| Admin.GetTotalUsers | modules/admin/admin.controller.js:371-386 | The total is the number of positions in the table that hold a USER row. It is also the length of the USER listing, and it is zero exactly when there is no USER row. |
| Admin.DeleteAdmin | modules/admin/admin.controller.js:271-299 | No id gives 400. An id string Prisma rejects gives 500, and no ADMIN with the id it denotes gives 404. When an ADMIN has that id the admin is deleted: exactly the ADMIN rows with that id are removed and every other row is kept. |
| Admin.InviteAdmin | modules/admin/admin.controller.js:301-340 | An invalid email gives 400, and an existing ADMIN with that email 400 with no create. Past those checks, the create fails with 500 exactly when a non-admin already has the email. An email no user has always yields an invitation, which appends exactly one ADMIN row with the hashed random password. |
| Admin.SetUserStatus | modules/admin/admin.controller.js:388-448 | No id gives 400 and an id string Prisma rejects 500. A missing or non-USER id gives 404. When a USER has that id the status is set: only USER rows with that id, and only their status, change. |
| Admin.ToggleMailStatus | modules/admin/admin.controller.js:489 | Pending becomes Solved, and anything else becomes Pending. |
| Admin.ChangeMailStatus | modules/admin/admin.controller.js:473-505 | No id gives 400, an id string Prisma rejects 500 and an unknown id 404. When a mail has that id it is changed: only that mail's status changes, to the toggled value. |
| AdminProofs.MailToggleInvolution | modules/admin/admin.controller.js:489 | Toggling twice is the identity exactly on {Pending, Solved}. |
| AdminProofs.ChangeMailStatusTwiceRestores | modules/admin/admin.controller.js:473-505 | Changing a Pending or Solved mail twice gives the mail table back. |
| AdminProofs.SuspendIdempotent | modules/admin/admin.controller.js:388-417 | Suspending twice equals suspending once. |
| AdminProofs.SuspendThenActivate | modules/admin/admin.controller.js:388-448 | Suspending an active user and then activating it gives the store back. |
| AdminProofs.IntegerKeyFailsIdRoutes | modules/admin/admin.controller.js:271-505 | When Prisma rejects every string as an id (an integer id column), deleting an admin, suspending, activating and changing a mail status each give 500 and change nothing. |
| AdminProofs.TotalMatchesList | modules/admin/admin.controller.js:342-386 | The user count equals the length of the user list. |
| AdminProofs.ChangedPasswordLogsIn | modules/admin/admin.controller.js:27-141 | After a password change, admin login with the new password succeeds. |
| AdminProofs.InvitedAdminLogsIn | modules/admin/admin.controller.js:301-340 | An invited admin can log in with the mailed password as the new id. |
| AdminProofs.InvitedAdminListed | modules/admin/admin.controller.js:243-340 | After an invitation, the admin list includes the new admin row and every admin listed before. |
| AdminProofs.InviteKeepsValid | modules/admin/admin.controller.js:301-340 | Invitation keeps the store invariant. |
| AdminProofs.UpdateDetailsKeepsValid | modules/admin/admin.controller.js:200-241 | A detail update keeps the store invariant. It succeeds only when no other row holds the new email. |
| AdminProofs.DeleteKeepsValid | modules/admin/admin.controller.js:271-299 | Deletion keeps the store invariant. |
| AdminProofs.InviteCanShadowPending | modules/admin/admin.controller.js:309-326 | The invitation checks only the user table, so it can register an email whose OTP registration is pending. |
| Items.GenerateItemData | modules/add_items/add_iteams.controller.js:20-77 | Null exactly when the interval call fails, or when the forum call is needed and fails. The intervals and the forum suggestions are each the completion's `\n`-free lines, whose join gives the text back, which makes them its `split("\n")`. Forum suggestions are `[]` unless `is_subscribed === 1`. |
| Items.AddItem | modules/add_items/add_iteams.controller.js:79-139 | No `req.user` gives 500 and deletes the upload. A missing user id gives 400 with no write. An invalid date gives 500 and deletes the upload, which every 500 before the create does. Otherwise the item is created first, with is_subscribed 1 and price 2500. A failed enrichment gives 500 and keeps the item without enrichment. The reply is 201 with the enriched item exactly when there is a caller id, both dates parse and the enrichment succeeds. |
| ItemsProofs.CompletionLinesStored | modules/add_items/add_iteams.controller.js:66-70 | Whatever lines the completion consists of, exactly those lines are stored. |
| ItemsProofs.TextFlagNeverGetsForums | modules/add_items/add_iteams.controller.js:52-67 | A text `is_subscribed`, as every multipart body has, never gets forum suggestions, whatever the forum completion. |
| ItemsProofs.FailedEnrichmentKeepsItemAndImage | modules/add_items/add_iteams.controller.js:90-129 | After a failed enrichment the item and its image stay. |
| ItemsProofs.AddItemKeepsValid | modules/add_items/add_iteams.controller.js:90-106 | Adding an item keeps the store invariant. |
| Middleware.AuthUser | middlewares/authUser.js:6-34 | A missing header or one not starting with "Bearer " gives 401. An empty token gives 400 and a rejected one 401. Otherwise the request passes with the claims' user id. |
| Middleware.BearerToken | middlewares/authUser.js:14 | The token is the header's second space-separated field. |
| MiddlewareProofs.BearerTokenIsFirstWord | middlewares/authUser.js:14 | That field is the text after "Bearer " up to the next space. |
| MiddlewareProofs.BearerHeaderRoundTrip | middlewares/authUser.js:10-32 | A header built from a space-free token passes exactly when the verifier accepts that token. |
| MiddlewareProofs.SameHeaderToken | modules/user/user.controller.js:174 | Step 3 and `authUser` take the same token from a bearer header. |
| Middleware.VerifyUser | middlewares/verifyUser.js:6-35 | Without a cookie parser the guard throws before answering. With one: no token cookie gives 400, and a rejected token or one without a user id gives 401. Otherwise the request passes with the user id. |
| MiddlewareProofs.LoginCookiePassesVerifyUser | middlewares/verifyUser.js:6-35 | With a cookie parser mounted, the corrected login's cookie passes `verifyUser` with the user's id. |
| Middleware.VerifyAdmin | middlewares/verifyAdmin.js:6-34 | Without a cookie parser the guard throws before answering. With one: no token cookie gives 400 and a rejected token 401. A truthy role other than "admin" gives 401. Otherwise the request passes. `req.userId` is set whenever the token verifies, rejected or not. |
| Middleware.VerifyAdminStrict | middlewares/verifyAdmin.js:6-34 | Corrected guard: with a cookie parser mounted, it passes exactly a verified token whose role is "admin". Without one it throws like the original. |
| MiddlewareProofs.OtpTokenPassesAdminGate | middlewares/verifyAdmin.js:25-29 | With a cookie parser mounted, the role-less token from OTP verification passes the guard as written and is refused by the strict one. |
| MiddlewareProofs.OtpTokenPassesAdminGateExample | middlewares/verifyAdmin.js:25-29 | With a cookie parser mounted: a concrete store, OTP and token for which the guard as written lets a merely verified user through. |
| MiddlewareProofs.AdminLoginTokenRefused | middlewares/verifyAdmin.js:21-28 | With a cookie parser mounted, an admin whose role is a non-empty string other than "admin" is refused, even with the login token. `req.userId` is still set. |
| MiddlewareProofs.StrictGuardIsStricter | middlewares/verifyAdmin.js:25-29 | Whatever the strict guard passes, the guard as written passes identically. |
| MiddlewareProofs.GuardsThrowWithoutParser | middlewares/verifyUser.js:7 | As the application is wired, with no cookie parser, `verifyUser` and `verifyAdmin` throw on every request, whatever its cookies, and let none through. |
| Table.CountIsFilterLength | modules/admin/admin.controller.js:371-375 | Counting the matching rows equals the length of the list of matching rows. |
| Table.CountIsMatchingPositions | modules/admin/admin.controller.js:371-375 | Counting the matching rows equals the number of table positions whose row matches. |
| Table.Filter | modules/admin/admin.controller.js:245-247 | `findMany` keeps every matching row as many times as the table holds it, and drops every other row. |
| Common.JoinSplit | modules/add_items/add_iteams.controller.js:66-70 | Splitting on a character and joining back gives the original string. |
| Common.SplitJoin | modules/add_items/add_iteams.controller.js:66-70 | Joining parts that do not contain the separator and splitting again gives the parts back. |

## Left out

- `logout`, `checkAuthStatus`, `updateImage`, `getAllMails`, `createService`, `getAllServices`, `getMe`, `getAllItems` and `getItemById` are not part of this model. They are plain reads or writes outside the modelled core.
- Email delivery (`utils/mailService.js`) is not modelled; "mailed" is recorded as a flag. `sendEmail` catches transport errors itself, so a failed delivery never reaches a handler.
- The `Math.round(price * 100)` amount sent to the payment provider is not modelled, because it is floating-point arithmetic on the provider side. The provider call itself becomes the client-secret parameter.
- Prompt texts and HTTP details of the completion calls are left out; only the returned text matters. The prompt reads `category` while the body field is `Category`, which changes the prompt only.
- Multer storage, file names and the filesystem are reduced to a set of upload names. `unlinkSync` failing on a missing file is not modelled.
- Column projections of the list endpoints (`select`) and the `created_at` ordering are not modelled. Listed rows are whole rows.
- Column defaults are assumed: `role` "normal", `status` active and `is_subscribed` 0 for created users. Ids come from one counter shared by all tables. The schema is not part of this model.
- Foreign-key constraints are not modelled. An item for an unknown user id, or deleting an admin that still owns rows, is not rejected.
- The Prisma schema is not part of this model, so the type of the id columns is unknown. Two kinds of id reach Prisma as strings: the `:id` route parameters, passed on unconverted, and the Stripe metadata values, which the provider stores as text. Both are read through a `KeyReader` parameter. An integer column rejects every such string; a text column accepts it. Ids from JWT claims and the body `service_id` are taken to be of the column's type already.
- An id that is already of the column's type is treated as present even when it is 0, although JavaScript treats 0 as falsy. The model's counter hands out the ids.
- JSON body values are modelled as missing, a number or a string (`Value`) for the OTP, every password (registration, both logins, the admin password change, reset) and `is_subscribed`. Other body fields (emails, names, item fields) are taken as strings. A non-string there, which Prisma or the email validator would reject with a 500, is not modelled. JSON booleans, arrays and objects are not modelled.
- What the client receives after a guard throws (`Verdict.Thrown`) is not modelled. `verifyUser` and `verifyAdmin` are `async` (middlewares/verifyUser.js:6, middlewares/verifyAdmin.js:6), so the throw on `req.cookies` rejects the promise they return. Express 4 ignores that promise: the request is left unanswered, and the rejection is unhandled. As with the `il` observation below, no `unhandledRejection` handler is registered, so under Node's default mode since version 15 the process exits. Express 5 hands the rejection to the error handler instead. The model does not model the process ending.
- String lengths count characters, not UTF-16 code units.
- JWT expiry, secrets and signatures are inside the `verify`/`sign` parameters. `loginAdmin` signs with `JWT_SECRET` while the guards verify with `WEBTOKEN_SECRET_KEY`. Unless the two are equal, an admin login token never verifies at the guards. The model's single `verify` cannot express two keys.
- Items.AddItem: `parseFloat` returning NaN, and Prisma's treatment of it, are not modelled. The mileage parser is a parameter returning a number.
- Concurrency, retries and the order of interleaved requests are not modelled. Each handler is one atomic step.
- Time zones and time of day are not modelled. `calculateSubscriptionEndDate` works on the local calendar date.
- Which guard each route uses is not modelled: the routes import `verifyUsers.js`, which is not part of this model.
- `handleWebhook` reading the raw body and Stripe's signature algorithm are not modelled; the parsed event or nothing is a parameter.
- Module loading is not modelled. `admin.controller.js` imports `sendAdminInvitationEmail`, which `mailService.js` does not export, so under ES module linking the application fails to start. The model describes the handlers as if they loaded.

## Findings

| source | as written | input that shows it | evidently intended | confidence | as-written member | corrected member |
|---|---|---|---|---|---|---|
| modules/user/user.controller.js:249 | `authenticateUser` calls `generateToken`, which is neither defined nor imported. Every correct login throws and is answered with a 500. | A completed user "a@x.com" with the right password | Sign claims {userId, email, role}, set the `token` cookie and answer 200 | high (not executed) | Registration.AuthenticateUserAsWritten, RegistrationProofs.LoginAsWrittenCounterexample | Registration.AuthenticateUser, RegistrationProofs.LoginOnlyWhenComplete |
| modules/user/user.controller.js:288-289 | `forgotPasswordOTPsend` sets only the `otp` cookie. `resetPassword` updates the user named by an `email` cookie that no handler sets, so, even with a cookie parser mounted, the flow ends in a 500. | Any registered email: send, match with the sent OTP, reset with an 8-character password | Set the `email` cookie alongside the OTP, so that the reset updates that user | medium (not executed) | Registration.ForgotPasswordOtpSend, RegistrationProofs.ResetFlowNeedsEmailCookie | Registration.ForgotPasswordOtpSendCorrected, RegistrationProofs.ResetFlowSucceeds |
| app.js:14-43 | The application mounts CORS, JSON, raw and urlencoded body parsers but no cookie parser. `req.cookies` is therefore undefined: both guards throw when they read the token, matching an OTP gives 500 and every password reset gives 500. | Any request with a valid `token` cookie to a guarded route; the reset flow for any registered email | Mount a cookie parser, so that the guards and the reset flow read the cookies they set | high (not executed) | MiddlewareProofs.GuardsThrowWithoutParser, RegistrationProofs.ResetFlowAsWired | MiddlewareProofs.LoginCookiePassesVerifyUser, RegistrationProofs.ResetFlowSucceeds |
| middlewares/verifyAdmin.js:25 | Only a present role other than "admin" is refused. The token from OTP verification has no role claim and, with a cookie parser mounted, passes the admin guard. | The token issued to "a@x.com" after OTP verification | Pass only tokens whose role is "admin" | medium (not executed) | Middleware.VerifyAdmin, MiddlewareProofs.OtpTokenPassesAdminGateExample | Middleware.VerifyAdminStrict, MiddlewareProofs.StrictGuardIsStricter |

Other behaviours the proofs make explicit, without a corrected version:

- With a cookie parser mounted, `resetPassword` trusts client cookies (`RegistrationProofs.ForgedCookiesResetPassword`).
- An OTP sent as a JSON number never matches the stored string under `!==` (`RegistrationProofs.RegisterThenNumericCode`).
- With an integer id column, every `:id` route and every webhook reconciliation fails, because the id arrives as a string (`AdminProofs.IntegerKeyFailsIdRoutes`, `PaymentsProofs.IntegerKeyNeverReconciles`).
- `sendRegistrationOTPEmail` ends with a stray identifier `il` (utils/mailService.js:41). It throws a ReferenceError after each registration mail is sent. `registerUserStep1` does not await it, so the rejection is unhandled rather than answered. No `unhandledRejection` handler is registered in the application, so under Node's default mode since version 15 (`--unhandled-rejections=throw`) the process exits after each registration mail. The model keeps the 200 and does not model the process ending.
- `forgotPasswordOTPsend` calls `sendForgotPasswordOTP(user.name, user.email, otp)`, but the mailer takes `(email, otp)`. The mail is addressed to the user's name and carries the email in place of the OTP. The model records only that a mail was sent.
- `inviteAdmin` can register an email whose OTP registration is pending (`AdminProofs.InviteCanShadowPending`).
- A redelivered webhook event subscribes the user twice (`PaymentsProofs.ReplayedEventSubscribesAgain`).
- A multipart item request never gets forum suggestions (`ItemsProofs.TextFlagNeverGetsForums`).
- Handlers read `req.user` while the guards set `req.userId`. The model therefore takes the caller as an optional parameter, and its absence gives the handlers' 500 paths.

=== FILE: admin.dfy ===
/** The admin handlers of `admin.controller.js`: admin login and password
    change, profile update, admin listing/deletion/invitation, user listing
    and counting, suspending and re-activating users, and toggling a support
    mail's status.

    `req.user` (the decoded caller) is a parameter; bcrypt's compare and
    hash, the email validator and the random invitation password are too. */
module Admin {
  import opened Common
  import opened Store
  import Table

  const PendingMail: string := "Pending"
  const SolvedMail: string := "Solved"

  datatype AdminReply =
    | FieldRequired(field: string)
    | NotRegisteredAsAdmin
    | InvalidPassword
    | AdminLoggedIn(token: Claims)
    | PasswordsRequired
    | UserNotFound
    | OldPasswordIncorrect
    | PasswordChanged
    | NotAuthenticated
    | NoFieldsToUpdate
    | DetailsUpdated
    | IdRequired
    | AdminNotFound
    | AdminDeleted
    | ValidEmailRequired
    | AdminAlreadyExists
    | Invited(id: Id, rawPassword: string)
    | Listed(rows: seq<User>)
    | NoneFound
    | Counted(total: nat)
    | StatusSet(newStatus: AccountStatus)
    | MailNotFound
    | MailStatusChanged(mailStatus: string)
    | ServerError
  {
    function Status(): int {
      match this
      case FieldRequired(_) => 400
      case PasswordsRequired => 400
      case NotAuthenticated => 400
      case NoFieldsToUpdate => 400
      case IdRequired => 400
      case ValidEmailRequired => 400
      case AdminAlreadyExists => 400
      case InvalidPassword => 401
      case OldPasswordIncorrect => 401
      case NotRegisteredAsAdmin => 404
      case UserNotFound => 404
      case AdminNotFound => 404
      case NoneFound => 404
      case MailNotFound => 404
      case ServerError => 500
      case _ => 200
    }
  }

  /** `findUnique({ where: { email, type: 'ADMIN' } })`. */
  function FindAdminByEmail(db: Db, email: string): (r: Option<nat>)
    ensures r.Some? ==> r.value < |db.users| && db.users[r.value].email == email && db.users[r.value].kind == ADMIN
    ensures r.None? <==> forall i :: 0 <= i < |db.users| ==> !(db.users[i].email == email && db.users[i].kind == ADMIN)
  {
    Table.Find(db.users, WithEmailAndKind(email, ADMIN))
  }

  /** `findUnique({ where: { id, type } })`. */
  function FindByIdAndKind(db: Db, id: Id, kind: AccountType): (r: Option<nat>)
    ensures r.Some? ==> r.value < |db.users| && db.users[r.value].id == id && db.users[r.value].kind == kind
    ensures r.None? <==> forall i :: 0 <= i < |db.users| ==> !(db.users[i].id == id && db.users[i].kind == kind)
  {
    Table.Find(db.users, WithIdAndKind(id, kind))
  }

  /** The claims `loginAdmin` signs. */
  function AdminClaims(u: User): Claims {
    Claims(Some(u.id), Some(u.email), Some(u.role), Some("ADMIN"))
  }

  /** `loginAdmin`. The first missing field is reported, email before
      password. bcrypt's compare throws (500) on a stored row without a hash
      and on a password that is not a string. */
  function LoginAdmin(db: Db, email: Option<string>, password: Value,
                      compare: (string, string) -> bool): (r: AdminReply)
    ensures !Truthy(email) <==> r == FieldRequired("email")
    ensures Truthy(email) && !password.Truthy() <==> r == FieldRequired("password")
    ensures Truthy(email) && password.Truthy() ==>
      (r == NotRegisteredAsAdmin <==> FindAdminByEmail(db, email.value).None?)
    ensures Truthy(email) && password.Truthy() && FindAdminByEmail(db, email.value).Some? ==>
      var u := db.users[FindAdminByEmail(db, email.value).value];
      && (r == ServerError <==> u.password.None? || !password.Text?)
      && (u.password.Some? && password.Text? ==>
            && (r == InvalidPassword <==> !compare(password.s, u.password.value))
            && (r.AdminLoggedIn? <==> compare(password.s, u.password.value)))
    ensures r == InvalidPassword ==>
      && Truthy(email) && password.Text? && password.s != [] && FindAdminByEmail(db, email.value).Some?
      && var u := db.users[FindAdminByEmail(db, email.value).value];
      && u.password.Some? && !compare(password.s, u.password.value)
    ensures r.AdminLoggedIn? <==>
      && Truthy(email) && password.Text? && password.s != []
      && FindAdminByEmail(db, email.value).Some?
      && var u := db.users[FindAdminByEmail(db, email.value).value];
      && u.password.Some? && compare(password.s, u.password.value)
    ensures r.AdminLoggedIn? ==>
      var u := db.users[FindAdminByEmail(db, email.value).value];
      && u.kind == ADMIN && u.email == email.value
      && r.token == Claims(Some(u.id), Some(u.email), Some(u.role), Some("ADMIN"))
  {
    if !Truthy(email) then FieldRequired("email")
    else if !password.Truthy() then FieldRequired("password")
    else
      match FindAdminByEmail(db, email.value)
      case None => NotRegisteredAsAdmin
      case Some(i) =>
        var u := db.users[i];
        if u.password.None? || !password.Text? then ServerError
        else if !compare(password.s, u.password.value) then InvalidPassword
        else AdminLoggedIn(AdminClaims(u))
  }

  /** `changeAdminPassword`. `req.user.userId` is read before anything else,
      so a request no middleware decoded fails with a 500; the user is looked
      up by id alone, whatever its type. bcrypt throws (500) on a stored row
      without a hash, on an old password that is not a string and, once the
      old password matches, on a new password that is not a string. */
  function ChangeAdminPassword(db: Db, caller: Option<Claims>, oldPassword: Value,
                               newPassword: Value, compare: (string, string) -> bool,
                               hash: string -> string): (r: Step<AdminReply>)
    ensures caller.None? ==> r.out == ServerError
    ensures caller.Some? ==> (r.out == PasswordsRequired <==> !oldPassword.Truthy() || !newPassword.Truthy())
    ensures caller.Some? && oldPassword.Truthy() && newPassword.Truthy() && caller.value.userId.None? ==>
      r.out == ServerError
    ensures caller.Some? && oldPassword.Truthy() && newPassword.Truthy() && caller.value.userId.Some? ==>
      (r.out == UserNotFound <==> FindUserById(db, caller.value.userId.value).None?)
    ensures caller.Some? && oldPassword.Truthy() && newPassword.Truthy() && caller.value.userId.Some?
            && FindUserById(db, caller.value.userId.value).Some? ==>
      var u := db.users[FindUserById(db, caller.value.userId.value).value];
      && (r.out == OldPasswordIncorrect <==>
            u.password.Some? && oldPassword.Text? && !compare(oldPassword.s, u.password.value))
      && (r.out == PasswordChanged <==>
            u.password.Some? && oldPassword.Text? && compare(oldPassword.s, u.password.value) && newPassword.Text?)
      && (r.out == ServerError <==>
            u.password.None? || !oldPassword.Text? || (compare(oldPassword.s, u.password.value) && !newPassword.Text?))
    ensures r.out == OldPasswordIncorrect ==>
      && caller.Some? && caller.value.userId.Some?
      && FindUserById(db, caller.value.userId.value).Some?
      && var u := db.users[FindUserById(db, caller.value.userId.value).value];
      && u.password.Some? && oldPassword.Text? && !compare(oldPassword.s, u.password.value)
    ensures r.out != PasswordChanged ==> r.db == db
    ensures r.out == PasswordChanged ==>
      && caller.Some? && caller.value.userId.Some?
      && var id := caller.value.userId.value;
      && FindUserById(db, id).Some?
      && var u := db.users[FindUserById(db, id).value];
      && u.password.Some? && oldPassword.Text? && compare(oldPassword.s, u.password.value)
      && newPassword.Text? && newPassword.s != []
      && r.db == db.(users := r.db.users)
      && |r.db.users| == |db.users|
      && (forall i :: 0 <= i < |db.users| && db.users[i].id != id ==> r.db.users[i] == db.users[i])
      && (forall i :: 0 <= i < |db.users| && db.users[i].id == id ==>
            r.db.users[i] == db.users[i].(password := Some(hash(newPassword.s))))
  {
    if caller.None? then Step(ServerError, db)
    else if !oldPassword.Truthy() || !newPassword.Truthy() then Step(PasswordsRequired, db)
    else if caller.value.userId.None? then Step(ServerError, db)
    else
      var id := caller.value.userId.value;
      match FindUserById(db, id)
      case None => Step(UserNotFound, db)
      case Some(i) =>
        var u := db.users[i];
        if u.password.None? || !oldPassword.Text? then Step(ServerError, db)
        else if !compare(oldPassword.s, u.password.value) then Step(OldPasswordIncorrect, db)
        else if !newPassword.Text? then Step(ServerError, db)
        else
          var hashed := hash(newPassword.s);
          Step(PasswordChanged,
               db.(users := Table.Update(db.users, WithId(id), (v: User) => v.(password := Some(hashed)))))
  }

  /** The columns `updateAdminDetails` writes: only the truthy ones. */
  function ApplyDetails(u: User, name: Option<string>, email: Option<string>): User {
    u.(name := if Truthy(name) then name else u.name,
       email := if Truthy(email) then email.value else u.email)
  }

  /** `updateAdminDetails`. An id that is not an admin's makes the update
      throw P2025 (404); an email another user already has violates the
      unique constraint (500). */
  function UpdateAdminDetails(db: Db, caller: Option<Claims>, name: Option<string>,
                              email: Option<string>): (r: Step<AdminReply>)
    ensures caller.None? || caller.value.userId.None? ==> r.out == NotAuthenticated
    ensures caller.Some? && caller.value.userId.Some? ==>
      (r.out == NoFieldsToUpdate <==> !Truthy(name) && !Truthy(email))
    ensures caller.Some? && caller.value.userId.Some? && (Truthy(name) || Truthy(email)) ==>
      (r.out == UserNotFound <==> FindByIdAndKind(db, caller.value.userId.value, ADMIN).None?)
    ensures r.out == ServerError ==>
      && Truthy(email)
      && exists i :: 0 <= i < |db.users| && db.users[i].email == email.value && db.users[i].id != caller.value.userId.value
    ensures caller.Some? && caller.value.userId.Some? && (Truthy(name) || Truthy(email))
            && FindByIdAndKind(db, caller.value.userId.value, ADMIN).Some? ==>
      && (r.out == ServerError <==>
            Truthy(email) && exists i :: 0 <= i < |db.users| && db.users[i].email == email.value
                                         && db.users[i].id != caller.value.userId.value)
      && (r.out != ServerError ==> r.out == DetailsUpdated)
    ensures r.out != DetailsUpdated ==> r.db == db
    ensures r.out == DetailsUpdated ==>
      && caller.Some? && caller.value.userId.Some?
      && var id := caller.value.userId.value;
      && (Truthy(name) || Truthy(email))
      && FindByIdAndKind(db, id, ADMIN).Some?
      && r.db == db.(users := r.db.users)
      && |r.db.users| == |db.users|
      && (forall i :: 0 <= i < |db.users| && !(db.users[i].id == id && db.users[i].kind == ADMIN) ==>
            r.db.users[i] == db.users[i])
      && (forall i :: 0 <= i < |db.users| && db.users[i].id == id && db.users[i].kind == ADMIN ==>
            && r.db.users[i] == ApplyDetails(db.users[i], name, email)
            && r.db.users[i].name == (if Truthy(name) then name else db.users[i].name)
            && r.db.users[i].email == (if Truthy(email) then email.value else db.users[i].email)
            && r.db.users[i].password == db.users[i].password
            && r.db.users[i].kind == ADMIN)
  {
    if caller.None? || caller.value.userId.None? then Step(NotAuthenticated, db)
    else if !Truthy(name) && !Truthy(email) then Step(NoFieldsToUpdate, db)
    else
      var id := caller.value.userId.value;
      if FindByIdAndKind(db, id, ADMIN).None? then Step(UserNotFound, db)
      else if Truthy(email) && Table.Find(db.users, (u: User) => u.email == email.value && u.id != id).Some? then
        Step(ServerError, db)
      else
        Step(DetailsUpdated,
             db.(users := Table.Update(db.users, WithIdAndKind(id, ADMIN), (u: User) => ApplyDetails(u, name, email))))
  }

  /** `getAllAdmins`: every ADMIN row; none at all is a 404. */
  function GetAllAdmins(db: Db): (r: AdminReply)
    ensures r.Listed? || r == NoneFound
    ensures r == NoneFound <==> forall i :: 0 <= i < |db.users| ==> db.users[i].kind != ADMIN
    ensures r.Listed? ==> forall k :: 0 <= k < |r.rows| ==> r.rows[k] in db.users && r.rows[k].kind == ADMIN
    ensures r.Listed? ==> forall i :: 0 <= i < |db.users| && db.users[i].kind == ADMIN ==> db.users[i] in r.rows
    ensures r.Listed? ==> forall i {:trigger multiset(r.rows)[db.users[i]]} :: 0 <= i < |db.users| ==>
      multiset(r.rows)[db.users[i]] == if db.users[i].kind == ADMIN then multiset(db.users)[db.users[i]] else 0
  {
    var admins := Table.Filter(db.users, OfKind(ADMIN));
    Table.FilterEmptyIffNoMatch(db.users, OfKind(ADMIN));
    if |admins| == 0 then NoneFound else Listed(admins)
  }

  /** `getAllUsers`: every USER row; none at all is a 404. */
  function GetAllUsers(db: Db): (r: AdminReply)
    ensures r.Listed? || r == NoneFound
    ensures r == NoneFound <==> forall i :: 0 <= i < |db.users| ==> db.users[i].kind != USER
    ensures r.Listed? ==> forall k :: 0 <= k < |r.rows| ==> r.rows[k] in db.users && r.rows[k].kind == USER
    ensures r.Listed? ==> forall i :: 0 <= i < |db.users| && db.users[i].kind == USER ==> db.users[i] in r.rows
    ensures r.Listed? ==> forall i {:trigger multiset(r.rows)[db.users[i]]} :: 0 <= i < |db.users| ==>
      multiset(r.rows)[db.users[i]] == if db.users[i].kind == USER then multiset(db.users)[db.users[i]] else 0
  {
    var users := Table.Filter(db.users, OfKind(USER));
    Table.FilterEmptyIffNoMatch(db.users, OfKind(USER));
    if |users| == 0 then NoneFound else Listed(users)
  }

  /** `getTotalUsers`: `count({ where: { type: 'USER' } })`. The total is
      the size of the table's sub-multiset of USER rows. */
  function GetTotalUsers(db: Db): (r: AdminReply)
    ensures r.Counted?
    ensures r.total <= |db.users|
    ensures r.total == 0 <==> forall i :: 0 <= i < |db.users| ==> db.users[i].kind != USER
    ensures r.total == |Table.Filter(db.users, OfKind(USER))|
    ensures r.total == |set i | 0 <= i < |db.users| && db.users[i].kind == USER|
  {
    Table.CountIsFilterLength(db.users, OfKind(USER));
    UserCountIsUserPositions(db);
    Counted(Table.Count(db.users, OfKind(USER)))
  }

  lemma UserCountIsUserPositions(db: Db)
    ensures Table.Count(db.users, OfKind(USER)) == |set i | 0 <= i < |db.users| && db.users[i].kind == USER|
  {
    Table.CountIsMatchingPositions(db.users, OfKind(USER));
    var matching := Table.Positions(db.users, OfKind(USER));
    var users := set i | 0 <= i < |db.users| && db.users[i].kind == USER;
    forall i ensures i in matching <==> i in users {
      if 0 <= i < |db.users| {
        assert OfKind(USER)(db.users[i]) == (db.users[i].kind == USER);
      }
    }
    assert matching == users;
  }

  /** `deleteAdmin`: removes the ADMIN row with that id, and only it. The
      `:id` route parameter reaches Prisma as the string it is; `key` is how
      Prisma reads it, and a rejected string makes the lookup throw (500). */
  function DeleteAdmin(db: Db, id: Option<string>, key: KeyReader): (r: Step<AdminReply>)
    ensures r.out == IdRequired <==> !Truthy(id)
    ensures r.out == ServerError <==> Truthy(id) && key(id.value).None?
    ensures ReadKey(id, key).Some? ==>
      (r.out == AdminNotFound <==> FindByIdAndKind(db, ReadKey(id, key).value, ADMIN).None?)
    ensures ReadKey(id, key).Some? && FindByIdAndKind(db, ReadKey(id, key).value, ADMIN).Some? ==>
      r.out == AdminDeleted
    ensures r.out != AdminDeleted ==> r.db == db
    ensures r.out == AdminDeleted ==>
      && ReadKey(id, key).Some?
      && var k := ReadKey(id, key).value;
      && r.db == db.(users := r.db.users)
      && (forall j :: 0 <= j < |r.db.users| ==>
            r.db.users[j] in db.users && !(r.db.users[j].id == k && r.db.users[j].kind == ADMIN))
      && (forall i :: 0 <= i < |db.users| && !(db.users[i].id == k && db.users[i].kind == ADMIN) ==>
            db.users[i] in r.db.users)
      && |r.db.users| < |db.users|
  {
    if !Truthy(id) then Step(IdRequired, db)
    else
      match key(id.value)
      case None => Step(ServerError, db)
      case Some(adminId) =>
        match FindByIdAndKind(db, adminId, ADMIN)
        case None => Step(AdminNotFound, db)
        case Some(k) =>
          var kept := Table.Filter(db.users, (u: User) => !(u.id == adminId && u.kind == ADMIN));
          assert |kept| < |db.users| by { KeptIsShorter(db.users, adminId, k, kept); }
          Step(AdminDeleted, db.(users := kept))
  }

  /** Filtering out a row that matches leaves fewer rows. */
  lemma {:induction false} KeptIsShorter(users: seq<User>, id: Id, k: nat, kept: seq<User>)
    requires k < |users| && users[k].id == id && users[k].kind == ADMIN
    requires kept == Table.Filter(users, (u: User) => !(u.id == id && u.kind == ADMIN))
    ensures |kept| < |users|
  {
    if k == 0 {
      assert kept == Table.Filter(users[1..], (u: User) => !(u.id == id && u.kind == ADMIN));
    } else {
      KeptIsShorter(users[1..], id, k - 1, Table.Filter(users[1..], (u: User) => !(u.id == id && u.kind == ADMIN)));
    }
  }

  /** The row `inviteAdmin` creates. */
  function InvitedAdmin(id: Id, email: string, hashed: string): User {
    User(id, email, None, Some(hashed), ADMIN, DefaultRole, Active, 0, None)
  }

  /** `inviteAdmin`. `isEmail` is the validator, `rawPassword` the random
      password (mailed to the invitee), `hash` bcrypt's hash. An email a
      non-admin user already has violates the unique constraint (500). */
  function InviteAdmin(db: Db, email: Option<string>, isEmail: string -> bool, rawPassword: string,
                       hash: string -> string): (r: Step<AdminReply>)
    ensures r.out == ValidEmailRequired <==> !Truthy(email) || !isEmail(email.value)
    ensures Truthy(email) && isEmail(email.value) ==>
      (r.out == AdminAlreadyExists <==> FindAdminByEmail(db, email.value).Some?)
    ensures Truthy(email) && isEmail(email.value) && FindAdminByEmail(db, email.value).None? ==>
      (r.out == ServerError <==> EmailRegistered(db, email.value))
    ensures r.out == ServerError ==> EmailRegistered(db, email.value)
    ensures Truthy(email) && isEmail(email.value) && !EmailRegistered(db, email.value) ==> r.out.Invited?
    ensures !r.out.Invited? ==> r.db == db
    ensures r.out.Invited? ==>
      && Truthy(email) && isEmail(email.value)
      && !EmailRegistered(db, email.value)
      && r.out == Invited(db.nextId, rawPassword)
      && r.db == db.(users := db.users + [InvitedAdmin(db.nextId, email.value, hash(rawPassword))],
                     nextId := db.nextId + 1)
  {
    if !Truthy(email) || !isEmail(email.value) then Step(ValidEmailRequired, db)
    else if FindAdminByEmail(db, email.value).Some? then Step(AdminAlreadyExists, db)
    else
      var e := email.value;
      if Table.Find(db.users, WithEmail(e)).Some? then Step(ServerError, db)
      else
        var id := db.nextId;
        Step(Invited(id, rawPassword),
             db.(users := db.users + [InvitedAdmin(id, e, hash(rawPassword))], nextId := id + 1))
  }

  /** The status write shared by `suspendUser` and `activateUser`: only a
      USER row with that id, and only its status column. The `:id` string
      is read by `key` as in `deleteAdmin`. */
  function SetUserStatus(db: Db, id: Option<string>, key: KeyReader, status: AccountStatus): (r: Step<AdminReply>)
    ensures r.out == IdRequired <==> !Truthy(id)
    ensures r.out == ServerError <==> Truthy(id) && key(id.value).None?
    ensures ReadKey(id, key).Some? ==>
      (r.out == UserNotFound <==> FindByIdAndKind(db, ReadKey(id, key).value, USER).None?)
    ensures ReadKey(id, key).Some? && FindByIdAndKind(db, ReadKey(id, key).value, USER).Some? ==>
      r.out == StatusSet(status)
    ensures r.out != StatusSet(status) ==> r.db == db
    ensures r.out == StatusSet(status) ==>
      && ReadKey(id, key).Some?
      && var k := ReadKey(id, key).value;
      && r.db == db.(users := r.db.users)
      && |r.db.users| == |db.users|
      && forall i :: 0 <= i < |db.users| ==>
           r.db.users[i] == if db.users[i].id == k && db.users[i].kind == USER
                            then db.users[i].(status := status) else db.users[i]
  {
    if !Truthy(id) then Step(IdRequired, db)
    else
      match key(id.value)
      case None => Step(ServerError, db)
      case Some(userId) =>
        if FindByIdAndKind(db, userId, USER).None? then Step(UserNotFound, db)
        else
          Step(StatusSet(status),
               db.(users := Table.Update(db.users, WithIdAndKind(userId, USER), (u: User) => u.(status := status))))
  }

  /** `suspendUser`. */
  function SuspendUser(db: Db, id: Option<string>, key: KeyReader): (r: Step<AdminReply>)
    ensures r.out == StatusSet(Suspended) <==>
      ReadKey(id, key).Some? && FindByIdAndKind(db, ReadKey(id, key).value, USER).Some?
  {
    SetUserStatus(db, id, key, Suspended)
  }

  /** `activateUser`. */
  function ActivateUser(db: Db, id: Option<string>, key: KeyReader): (r: Step<AdminReply>)
    ensures r.out == StatusSet(Active) <==>
      ReadKey(id, key).Some? && FindByIdAndKind(db, ReadKey(id, key).value, USER).Some?
  {
    SetUserStatus(db, id, key, Active)
  }

  /** The status `changeMailStatus` writes: Pending becomes Solved and
      anything else becomes Pending. */
  function ToggleMailStatus(s: string): (t: string)
    ensures t == SolvedMail <==> s == PendingMail
    ensures t == PendingMail <==> s != PendingMail
  {
    if s == PendingMail then SolvedMail else PendingMail
  }

  function FindMail(db: Db, id: Id): (r: Option<nat>)
    ensures r.Some? ==> r.value < |db.mails| && db.mails[r.value].id == id
    ensures r.None? <==> forall i :: 0 <= i < |db.mails| ==> db.mails[i].id != id
  {
    Table.Find(db.mails, (m: Mail) => m.id == id)
  }

  /** `changeMailStatus`. The `:id` string is read by `key` as in
      `deleteAdmin`. */
  function ChangeMailStatus(db: Db, id: Option<string>, key: KeyReader): (r: Step<AdminReply>)
    ensures r.out == IdRequired <==> !Truthy(id)
    ensures r.out == ServerError <==> Truthy(id) && key(id.value).None?
    ensures ReadKey(id, key).Some? ==> (r.out == MailNotFound <==> FindMail(db, ReadKey(id, key).value).None?)
    ensures ReadKey(id, key).Some? && FindMail(db, ReadKey(id, key).value).Some? ==> r.out.MailStatusChanged?
    ensures !r.out.MailStatusChanged? ==> r.db == db
    ensures r.out.MailStatusChanged? ==>
      && ReadKey(id, key).Some?
      && var mailId := ReadKey(id, key).value;
      && FindMail(db, mailId).Some?
      && r.out.mailStatus == ToggleMailStatus(db.mails[FindMail(db, mailId).value].status)
      && r.db == db.(mails := r.db.mails)
      && |r.db.mails| == |db.mails|
      && forall i :: 0 <= i < |db.mails| ==>
           r.db.mails[i] == if db.mails[i].id == mailId
                            then db.mails[i].(status := r.out.mailStatus) else db.mails[i]
  {
    if !Truthy(id) then Step(IdRequired, db)
    else
      match key(id.value)
      case None => Step(ServerError, db)
      case Some(mailId) =>
        match FindMail(db, mailId)
        case None => Step(MailNotFound, db)
        case Some(k) =>
          var newStatus := ToggleMailStatus(db.mails[k].status);
          Step(MailStatusChanged(newStatus),
               db.(mails := Table.Update(db.mails, (m: Mail) => m.id == mailId, (m: Mail) => m.(status := newStatus))))
  }
}

=== FILE: admin_proofs.dfy ===
/** Properties of the admin handlers that relate several calls or hold of
    every store. */
module AdminProofs {
  import opened Common
  import opened Store
  import opened Admin
  import Table
  import Registration

  /** Distinct user emails: the row with a given email is unique. */
  lemma {:induction false} OnlyRowWithEmail(users: seq<User>, i: nat, j: nat)
    requires forall a, b :: 0 <= a < b < |users| ==> users[a].email != users[b].email
    requires i < |users| && j < |users| && users[i].email == users[j].email
    ensures i == j
  {
  }

  /** Toggling a mail's status twice restores it exactly when the status is
      one of the two the handler writes. */
  lemma MailToggleInvolution(s: string)
    ensures ToggleMailStatus(ToggleMailStatus(s)) == s <==> s == PendingMail || s == SolvedMail
  {
  }

  /** With distinct mail ids, changing the same mail's status twice gives the
      mail table back, provided its status was Pending or Solved. */
  lemma {:induction false} ChangeMailStatusTwiceRestores(db: Db, param: string, key: KeyReader, id: Id)
    requires forall i, j :: 0 <= i < j < |db.mails| ==> db.mails[i].id != db.mails[j].id
    requires param != "" && key(param) == Some(id)
    requires FindMail(db, id).Some?
    requires db.mails[FindMail(db, id).value].status in {PendingMail, SolvedMail}
    ensures var once := ChangeMailStatus(db, Some(param), key);
      && once.out == MailStatusChanged(ToggleMailStatus(db.mails[FindMail(db, id).value].status))
      && ChangeMailStatus(once.db, Some(param), key).db == db
  {
    var k := FindMail(db, id).value;
    var once := ChangeMailStatus(db, Some(param), key);
    assert forall i :: 0 <= i < |db.mails| && db.mails[i].id == id ==> i == k;
    assert once.db.mails[k].id == id;
    var k2 := FindMail(once.db, id).value;
    assert k2 == k;
    var twice := ChangeMailStatus(once.db, Some(param), key);
    assert twice.db.mails == db.mails;
  }

  /** Suspending twice is suspending once. */
  lemma SuspendIdempotent(db: Db, id: Option<string>, key: KeyReader)
    ensures SuspendUser(SuspendUser(db, id, key).db, id, key) == SuspendUser(db, id, key)
  {
    var once := SuspendUser(db, id, key);
    if once.out == StatusSet(Suspended) {
      var userId := ReadKey(id, key).value;
      assert FindByIdAndKind(once.db, userId, USER).Some? by {
        var k := FindByIdAndKind(db, userId, USER).value;
        assert once.db.users[k].id == userId && once.db.users[k].kind == USER;
      }
      assert SuspendUser(once.db, id, key).db.users == once.db.users;
    }
  }

  /** Suspending an active user and re-activating it gives the store back. */
  lemma SuspendThenActivate(db: Db, param: string, key: KeyReader, id: Id)
    requires param != "" && key(param) == Some(id)
    requires forall i :: 0 <= i < |db.users| && db.users[i].id == id && db.users[i].kind == USER ==>
      db.users[i].status == Active
    ensures ActivateUser(SuspendUser(db, Some(param), key).db, Some(param), key).db == db
  {
    var once := SuspendUser(db, Some(param), key);
    if once.out == StatusSet(Suspended) {
      assert FindByIdAndKind(once.db, id, USER).Some? by {
        var k := FindByIdAndKind(db, id, USER).value;
        assert once.db.users[k].id == id && once.db.users[k].kind == USER;
      }
      assert ActivateUser(once.db, Some(param), key).db.users == db.users;
    }
  }

  /** With an integer id column Prisma rejects every route parameter, so
      each `:id` route answers 500 and changes nothing, whatever the id. */
  lemma IntegerKeyFailsIdRoutes(db: Db, id: string, key: KeyReader)
    requires id != "" && forall s :: key(s).None?
    ensures DeleteAdmin(db, Some(id), key) == Step(ServerError, db)
    ensures SuspendUser(db, Some(id), key) == Step(ServerError, db)
    ensures ActivateUser(db, Some(id), key) == Step(ServerError, db)
    ensures ChangeMailStatus(db, Some(id), key) == Step(ServerError, db)
  {
  }

  /** `getTotalUsers` counts exactly the rows `getAllUsers` lists. */
  lemma TotalMatchesList(db: Db)
    ensures GetTotalUsers(db).total == if GetAllUsers(db).Listed? then |GetAllUsers(db).rows| else 0
  {
    Table.CountIsFilterLength(db.users, OfKind(USER));
  }

  /** A changed password is the one that logs the admin in afterwards, given
      that the hash oracle's output is accepted by the compare oracle. */
  lemma {:induction false} ChangedPasswordLogsIn(db: Db, caller: Claims, oldPassword: Value,
                                                 newPassword: Value, compare: (string, string) -> bool,
                                                 hash: string -> string)
    requires Valid(db)
    requires forall p :: compare(p, hash(p))
    requires caller.userId.Some? && FindUserById(db, caller.userId.value).Some?
    requires var u := db.users[FindUserById(db, caller.userId.value).value];
      u.kind == ADMIN && u.email != []
    requires ChangeAdminPassword(db, Some(caller), oldPassword, newPassword, compare, hash).out == PasswordChanged
    ensures var u := db.users[FindUserById(db, caller.userId.value).value];
      var after := ChangeAdminPassword(db, Some(caller), oldPassword, newPassword, compare, hash).db;
      LoginAdmin(after, Some(u.email), newPassword, compare).AdminLoggedIn?
  {
    var i := FindUserById(db, caller.userId.value).value;
    var u := db.users[i];
    var after := ChangeAdminPassword(db, Some(caller), oldPassword, newPassword, compare, hash).db;
    assert after.users[i] == u.(password := Some(hash(newPassword.s)));
    assert forall a, b :: 0 <= a < b < |after.users| ==> after.users[a].email != after.users[b].email by {
      forall a, b | 0 <= a < b < |after.users|
        ensures after.users[a].email != after.users[b].email
      {
        assert after.users[a].email == db.users[a].email;
        assert after.users[b].email == db.users[b].email;
      }
    }
    assert after.users[i].email == u.email && after.users[i].kind == ADMIN;
    var k := FindAdminByEmail(after, u.email).value;
    OnlyRowWithEmail(after.users, i, k);
    assert compare(newPassword.s, hash(newPassword.s));
  }

  /** The admin an invitation creates can log in with the mailed password. */
  lemma {:induction false} InvitedAdminLogsIn(db: Db, email: string, isEmail: string -> bool, rawPassword: string,
                                              compare: (string, string) -> bool, hash: string -> string)
    requires forall p :: compare(p, hash(p))
    requires rawPassword != []
    requires InviteAdmin(db, Some(email), isEmail, rawPassword, hash).out.Invited?
    ensures var after := InviteAdmin(db, Some(email), isEmail, rawPassword, hash).db;
      && LoginAdmin(after, Some(email), Text(rawPassword), compare).AdminLoggedIn?
      && LoginAdmin(after, Some(email), Text(rawPassword), compare).token.userId == Some(db.nextId)
  {
    var after := InviteAdmin(db, Some(email), isEmail, rawPassword, hash).db;
    var n := |db.users|;
    assert after.users[n].email == email && after.users[n].kind == ADMIN;
    var k := FindAdminByEmail(after, email).value;
    assert k == n;
    assert compare(rawPassword, hash(rawPassword));
  }

  /** The admin an invitation creates is listed by `getAllAdmins`, and every
      admin listed before is still listed. */
  lemma {:induction false} InvitedAdminListed(db: Db, email: string, isEmail: string -> bool, rawPassword: string,
                                              hash: string -> string)
    requires InviteAdmin(db, Some(email), isEmail, rawPassword, hash).out.Invited?
    ensures var after := InviteAdmin(db, Some(email), isEmail, rawPassword, hash).db;
      && GetAllAdmins(after).Listed?
      && InvitedAdmin(db.nextId, email, hash(rawPassword)) in GetAllAdmins(after).rows
      && (GetAllAdmins(db).Listed? ==>
            forall k :: 0 <= k < |GetAllAdmins(db).rows| ==> GetAllAdmins(db).rows[k] in GetAllAdmins(after).rows)
  {
    var after := InviteAdmin(db, Some(email), isEmail, rawPassword, hash).db;
    var n := |db.users|;
    assert after.users[n] == InvitedAdmin(db.nextId, email, hash(rawPassword));
    assert after.users[n].kind == ADMIN;
    if GetAllAdmins(db).Listed? {
      forall k | 0 <= k < |GetAllAdmins(db).rows|
        ensures GetAllAdmins(db).rows[k] in GetAllAdmins(after).rows
      {
        var row := GetAllAdmins(db).rows[k];
        var i :| 0 <= i < |db.users| && db.users[i] == row;
        assert after.users[i] == row;
      }
    }
  }

  /** An invitation keeps the unique constraints and the id counter. */
  lemma InviteKeepsValid(db: Db, email: Option<string>, isEmail: string -> bool, rawPassword: string,
                         hash: string -> string)
    requires Valid(db)
    ensures Valid(InviteAdmin(db, email, isEmail, rawPassword, hash).db)
  {
  }

  /** An update of an admin's own details keeps the unique constraints: the
      new email is written only when no other user has it. */
  lemma {:induction false} UpdateDetailsKeepsValid(db: Db, caller: Option<Claims>, name: Option<string>,
                                                   email: Option<string>)
    requires Valid(db)
    ensures Valid(UpdateAdminDetails(db, caller, name, email).db)
  {
    var r := UpdateAdminDetails(db, caller, name, email);
    if r.out == DetailsUpdated {
      var id := caller.value.userId.value;
      if Truthy(email) {
        var others := (u: User) => u.email == email.value && u.id != id;
        assert Table.Find(db.users, others).None?;
        forall a, b | 0 <= a < b < |r.db.users|
          ensures r.db.users[a].email != r.db.users[b].email
        {
          var ua, ub := db.users[a], db.users[b];
          assert ua.id != ub.id;
          if ua.id == id && ua.kind == ADMIN {
            assert !others(ub);
          } else if ub.id == id && ub.kind == ADMIN {
            assert !others(ua);
          }
        }
      }
    }
  }

  /** Deleting an admin keeps the unique constraints and the id counter. */
  lemma DeleteKeepsValid(db: Db, id: Option<string>, key: KeyReader)
    requires Valid(db)
    ensures Valid(DeleteAdmin(db, id, key).db)
  {
    var r := DeleteAdmin(db, id, key);
    if r.out == AdminDeleted {
      var adminId := ReadKey(id, key).value;
      var p := (u: User) => !(u.id == adminId && u.kind == ADMIN);
      var kept := Table.Filter(db.users, p);
      assert r.db == db.(users := kept);
      Table.FilterKeepsDistinct(db.users, p, (u: User) => u.id);
      Table.FilterKeepsDistinct(db.users, p, (u: User) => u.email);
      forall k | 0 <= k < |kept|
        ensures kept[k].id < db.nextId
      {
        assert kept[k] in db.users;
      }
    }
  }

  /** `inviteAdmin` checks the user table only, so it can create an admin
      for an email whose OTP registration is still pending: the store then
      holds a pending registration for a registered email. */
  lemma InviteCanShadowPending()
    ensures var db := Db([], map["a@x.com" := Temp("1234", 0)], [], [], [], [], [], {}, 0);
      && Registration.Consistent(db)
      && var r := InviteAdmin(db, Some("a@x.com"), (e: string) => true, "pw", (p: string) => p);
      && r.out.Invited?
      && !Registration.Consistent(r.db)
  {
    var db := Db([], map["a@x.com" := Temp("1234", 0)], [], [], [], [], [], {}, 0);
    var r := InviteAdmin(db, Some("a@x.com"), (e: string) => true, "pw", (p: string) => p);
    assert r.db.users[0].email == "a@x.com";
    assert EmailRegistered(r.db, "a@x.com");
  }
}

=== FILE: calendar.dfy ===
/** Calendar dates with the day-overflow normalisation of JavaScript's
    `Date` setters (`setMonth`, `setFullYear`). Time of day and time zones
    are not represented: a date is the (year, month, day) a `Date` reports. */
module Calendar {

  /** Full year, zero-based month (0 is January) and day of the month,
      as `getFullYear`, `getMonth` and `getDate` return them. */
  datatype Date = Date(year: int, month: int, day: int)

  /** The proleptic Gregorian leap-year rule that `Date` uses. */
  predicate IsLeapYear(y: int) {
    (y % 4 == 0 && y % 100 != 0) || y % 400 == 0
  }

  function DaysInMonth(y: int, m: int): (n: int)
    requires 0 <= m < 12
    ensures 28 <= n <= 31
    ensures n == 31 <==> m in {0, 2, 4, 6, 7, 9, 11}
    ensures n < 30 <==> m == 1
  {
    if m == 1 then (if IsLeapYear(y) then 29 else 28)
    else if m == 3 || m == 5 || m == 8 || m == 10 then 30
    else 31
  }

  predicate ValidDate(d: Date) {
    0 <= d.month < 12 && 1 <= d.day <= DaysInMonth(d.year, d.month)
  }

  /** Months elapsed since January of year 0. */
  function MonthIndex(d: Date): int {
    d.year * 12 + d.month
  }

  /** Strict chronological order of dates. */
  predicate Before(a: Date, b: Date) {
    || a.year < b.year
    || (a.year == b.year && a.month < b.month)
    || (a.year == b.year && a.month == b.month && a.day < b.day)
  }

  /** The day after a valid date: the reference notion of "one day later". */
  function NextDay(d: Date): (n: Date)
    requires ValidDate(d)
    ensures ValidDate(n) && Before(d, n)
  {
    if d.day < DaysInMonth(d.year, d.month) then d.(day := d.day + 1)
    else if d.month < 11 then Date(d.year, d.month + 1, 1)
    else Date(d.year + 1, 0, 1)
  }

  /** `n` days after `d`, one day at a time. */
  function AddDays(d: Date, n: nat): (r: Date)
    requires ValidDate(d)
    ensures ValidDate(r)
  {
    if n == 0 then d else NextDay(AddDays(d, n - 1))
  }

  /** JavaScript's MakeDay for an in-range month: day number `day` counted
      from the first of (`year`, `month`), so a day beyond the month's end
      rolls over into the following month(s). The result is never earlier
      than that month. */
  function MakeDate(year: int, month: int, day: int): (r: Date)
    requires 0 <= month < 12 && day >= 1
    ensures ValidDate(r)
    ensures MonthIndex(r) >= year * 12 + month
    decreases day
  {
    if day <= DaysInMonth(year, month) then Date(year, month, day)
    else if month < 11 then MakeDate(year, month + 1, day - DaysInMonth(year, month))
    else MakeDate(year + 1, 0, day - 31)
  }

  /** `new Date(d).setMonth(m)`: a month outside 0..11 carries into the year,
      and the day of the month is kept and normalised. */
  function SetMonth(d: Date, m: int): (r: Date)
    requires ValidDate(d)
    ensures ValidDate(r)
    ensures MonthIndex(r) >= d.year * 12 + m
  {
    MakeDate(d.year + m / 12, m % 12, d.day)
  }

  /** `new Date(d).setFullYear(y)`: month and day are kept and normalised. */
  function SetFullYear(d: Date, y: int): (r: Date)
    requires ValidDate(d)
    ensures ValidDate(r)
    ensures MonthIndex(r) >= y * 12 + d.month
  {
    MakeDate(y, d.month, d.day)
  }

  /** A later month index means a later date. */
  lemma LaterMonthIsLater(a: Date, b: Date)
    requires ValidDate(a) && ValidDate(b)
    requires MonthIndex(a) < MonthIndex(b)
    ensures Before(a, b)
  {
  }

  lemma {:induction false} AddDaysSplit(d: Date, a: nat, b: nat)
    requires ValidDate(d)
    ensures AddDays(d, a + b) == AddDays(AddDays(d, a), b)
  {
    if b > 0 {
      AddDaysSplit(d, a, b - 1);
    }
  }

  lemma {:induction false} AddDaysWithinMonth(y: int, m: int, k: nat)
    requires 0 <= m < 12 && k < DaysInMonth(y, m)
    ensures AddDays(Date(y, m, 1), k) == Date(y, m, 1 + k)
  {
    if k > 0 {
      AddDaysWithinMonth(y, m, k - 1);
    }
  }

  /** MakeDate agrees with counting days from the first of the month: the
      normalised date is exactly `day - 1` days after (year, month, 1). */
  lemma {:induction false} MakeDateIsDayOffset(year: int, month: int, day: int)
    requires 0 <= month < 12 && day >= 1
    ensures MakeDate(year, month, day) == AddDays(Date(year, month, 1), day - 1)
    decreases day
  {
    var first := Date(year, month, 1);
    var dim := DaysInMonth(year, month);
    if day <= dim {
      AddDaysWithinMonth(year, month, day - 1);
    } else {
      AddDaysWithinMonth(year, month, dim - 1);
      assert AddDays(first, dim) == NextDay(Date(year, month, dim));
      AddDaysSplit(first, dim, day - 1 - dim);
      if month < 11 {
        MakeDateIsDayOffset(year, month + 1, day - dim);
      } else {
        MakeDateIsDayOffset(year + 1, 0, day - 31);
      }
    }
  }
}

=== FILE: common.dfy ===
/** Values shared by every handler: optional request fields, JSON body
    values and their JavaScript truthiness, and the one-character `String.prototype.split`
    that the handlers use to cut bearer headers and completion texts. */
module Common {

  /** An absent (`undefined`/`null`) or present value. */
  datatype Option<+T> = None | Some(value: T)

  /** `!!s` for an optional string field: present and not the empty string. */
  predicate Truthy(s: Option<string>) {
    s.Some? && s.value != ""
  }

  /** A JSON request-body field as a handler sees it: absent (`undefined` or
      `null`), a number, or text. */
  datatype Value = Missing | Number(n: real) | Text(s: string)
  {
    /** `!!v`: `undefined`, `null`, `0` and `""` are falsy. */
    predicate Truthy() {
      match this
      case Missing => false
      case Number(n) => n != 0.0
      case Text(s) => s != ""
    }
  }

  predicate StartsWith(s: string, prefix: string) {
    |prefix| <= |s| && s[..|prefix|] == prefix
  }

  /** `s.split(sep)` for a one-character separator: the maximal runs between
      separators, in order, including empty ones at either end. */
  function Split(s: string, sep: char): (parts: seq<string>)
    ensures |parts| >= 1
    ensures forall i :: 0 <= i < |parts| ==> sep !in parts[i]
  {
    if |s| == 0 then [""]
    else
      var rest := Split(s[1..], sep);
      if s[0] == sep then [""] + rest
      else [[s[0]] + rest[0]] + rest[1..]
  }

  /** `parts.join(sep)`: the partner of Split. */
  function Join(parts: seq<string>, sep: char): string
    requires |parts| >= 1
  {
    if |parts| == 1 then parts[0] else parts[0] + [sep] + Join(parts[1..], sep)
  }

  /** The prefix of `s` before its first `sep` (all of `s` when there is none). */
  function TakeUntil(s: string, sep: char): (t: string)
    ensures |t| <= |s| && t == s[..|t|]
    ensures sep !in t
    ensures |t| < |s| ==> s[|t|] == sep
  {
    if |s| == 0 || s[0] == sep then "" else [s[0]] + TakeUntil(s[1..], sep)
  }

  /** Joining the pieces of a split gives back the original text. */
  lemma {:induction false} JoinSplit(s: string, sep: char)
    ensures Join(Split(s, sep), sep) == s
  {
    if |s| > 0 {
      var rest := Split(s[1..], sep);
      JoinSplit(s[1..], sep);
      if s[0] == sep {
        assert Split(s, sep)[1..] == rest;
      } else {
        var parts := Split(s, sep);
        assert parts[0] == [s[0]] + rest[0];
        if |rest| > 1 {
          assert parts[1..] == rest[1..];
          assert Join(rest, sep) == rest[0] + [sep] + Join(rest[1..], sep);
        }
        assert s == [s[0]] + s[1..];
      }
    }
  }

  /** A separator splits its two sides independently. */
  lemma {:induction false} SplitAround(a: string, sep: char, b: string)
    ensures Split(a + [sep] + b, sep) == Split(a, sep) + Split(b, sep)
  {
    if |a| == 0 {
      assert a + [sep] + b == [sep] + b;
      assert ([sep] + b)[1..] == b;
    } else {
      assert (a + [sep] + b)[1..] == a[1..] + [sep] + b;
      SplitAround(a[1..], sep, b);
    }
  }

  /** Text without a separator splits into itself. */
  lemma {:induction false} SplitNoSeparator(s: string, sep: char)
    requires sep !in s
    ensures Split(s, sep) == [s]
  {
    if |s| > 0 {
      assert sep !in s[1..] by {
        forall i | 0 <= i < |s[1..]| ensures s[1..][i] != sep {
          assert s[1..][i] == s[i + 1];
        }
      }
      SplitNoSeparator(s[1..], sep);
      assert s == [s[0]] + s[1..];
    }
  }

  /** Splitting a join of separator-free pieces gives back the pieces. */
  lemma {:induction false} SplitJoin(parts: seq<string>, sep: char)
    requires |parts| >= 1
    requires forall i :: 0 <= i < |parts| ==> sep !in parts[i]
    ensures Split(Join(parts, sep), sep) == parts
  {
    SplitNoSeparator(parts[0], sep);
    if |parts| > 1 {
      SplitJoin(parts[1..], sep);
      SplitAround(parts[0], sep, Join(parts[1..], sep));
      assert parts == [parts[0]] + parts[1..];
    }
  }

  /** The first piece of a split is the text up to the first separator. */
  lemma {:induction false} SplitHead(s: string, sep: char)
    ensures Split(s, sep)[0] == TakeUntil(s, sep)
  {
    if |s| > 0 && s[0] != sep {
      SplitHead(s[1..], sep);
    }
  }

  /** A split yields a single piece exactly when the separator does not occur. */
  lemma {:induction false} SplitSinglePiece(s: string, sep: char)
    ensures |Split(s, sep)| == 1 <==> sep !in s
  {
    if |s| > 0 {
      SplitSinglePiece(s[1..], sep);
      assert sep in s <==> s[0] == sep || sep in s[1..] by {
        assert s == [s[0]] + s[1..];
      }
    }
  }

  /** The second space-separated field of `s` (`s.split(' ')[1]`), absent
      when `s` has no space. */
  function SecondField(s: string): (f: Option<string>)
    ensures f.None? <==> ' ' !in s
    ensures f.Some? ==> ' ' !in f.value
  {
    SplitSinglePiece(s, ' ');
    var parts := Split(s, ' ');
    if |parts| >= 2 then Some(parts[1]) else None
  }
}

=== FILE: items.dfy ===
/** `addItem` of `add_iteams.controller.js`: an item is created for the
    caller first, then enriched with service intervals and, for a subscribed
    request, forum suggestions generated by a language model.

    The two model completions are parameters (the completion text, or
    nothing when the call fails or the reply has no text); so are the
    date and number parsers JavaScript applies to the body's fields. */
module Items {
  import opened Common
  import opened Store
  import Calendar

  /** The fields of the request body the handler reads. `is_subscribed`
      keeps its JSON type; in a multipart body every field is text. */
  datatype ItemBody = ItemBody(
    name: Option<string>,
    brand: Option<string>,
    model: Option<string>,
    vin: Option<string>,
    purchaseDate: Option<string>,
    totalMileage: Option<string>,
    lastServiceDate: Option<string>,
    lastServiceName: Option<string>,
    category: Option<string>,
    isSubscribed: Value)

  const ItemPrice: real := 2500.0
  const UploadsUrl: string := "http://localhost:8080/uploads/"

  /** The strict comparison `is_subscribed === 1`: only the number one. */
  predicate WantsForums(v: Value) {
    v == Number(1.0)
  }

  /** What `generateItemData` returns when it succeeds. */
  datatype Enrichment = Enrichment(serviceIntervals: seq<string>, forumSuggestions: seq<string>)

  /** `generateItemData`: the interval completion split into lines and, only
      when the body asks for it, the forum completion split into lines. Any
      failed call makes the whole result null. */
  function GenerateItemData(isSubscribed: Value, serviceText: Option<string>,
                            forumText: Option<string>): (r: Option<Enrichment>)
    ensures r.None? <==> serviceText.None? || (WantsForums(isSubscribed) && forumText.None?)
    ensures r.Some? ==>
      && |r.value.serviceIntervals| >= 1
      && Join(r.value.serviceIntervals, '\n') == serviceText.value
      && (forall i :: 0 <= i < |r.value.serviceIntervals| ==> '\n' !in r.value.serviceIntervals[i])
    ensures r.Some? && !WantsForums(isSubscribed) ==> r.value.forumSuggestions == []
    ensures r.Some? && WantsForums(isSubscribed) ==>
      && |r.value.forumSuggestions| >= 1
      && Join(r.value.forumSuggestions, '\n') == forumText.value
      && (forall i :: 0 <= i < |r.value.forumSuggestions| ==> '\n' !in r.value.forumSuggestions[i])
  {
    if serviceText.None? then None
    else if WantsForums(isSubscribed) && forumText.None? then None
    else
      JoinSplit(serviceText.value, '\n');
      var forums := if WantsForums(isSubscribed) then (JoinSplit(forumText.value, '\n'); Split(forumText.value, '\n')) else [];
      Some(Enrichment(Split(serviceText.value, '\n'), forums))
  }

  /** A truthy text field converted by `parse`, or null. */
  function Convert<T>(field: Option<string>, parse: string -> T): Option<T> {
    if Truthy(field) then Some(parse(field.value)) else None
  }

  /** An item date that JavaScript's `Date` could not parse: Prisma rejects
      the create. */
  predicate BadDate(field: Option<string>, parseDate: string -> Option<Calendar.Date>) {
    Truthy(field) && parseDate(field.value).None?
  }

  /** The columns `addItem` writes, from the body. */
  function FieldsOf(body: ItemBody, parseDate: string -> Option<Calendar.Date>, parseFloat: string -> real): ItemFields
    requires !BadDate(body.purchaseDate, parseDate) && !BadDate(body.lastServiceDate, parseDate)
  {
    ItemFields(body.name, body.brand, body.model, body.vin,
               if Truthy(body.purchaseDate) then parseDate(body.purchaseDate.value) else None,
               Convert(body.totalMileage, parseFloat),
               if Truthy(body.lastServiceDate) then parseDate(body.lastServiceDate.value) else None,
               body.lastServiceName, body.category)
  }

  datatype AddOutcome =
    | UserIdRequired
    | EnrichmentFailed
    | ItemAdded(item: Item, imageUrl: Option<string>)
    | ItemError
  {
    function Status(): int {
      match this
      case UserIdRequired => 400
      case EnrichmentFailed => 500
      case ItemAdded(_, _) => 201
      case ItemError => 500
    }
  }

  /** The upload store after the error handler: the request's file, if any,
      is deleted. */
  function Unlink(db: Db, file: Option<string>): (r: Db)
    ensures r == db.(uploads := r.uploads)
    ensures file.Some? ==> file.value !in r.uploads && r.uploads == db.uploads - {file.value}
    ensures file.None? ==> r == db
  {
    if file.Some? then db.(uploads := db.uploads - {file.value}) else db
  }

  /** `addItem`. `caller` is `req.user`; reading its user id when no
      middleware set it throws into the error handler, which deletes the
      uploaded file. The item is created before the enrichment, so an item
      whose enrichment fails stays in the table without it. */
  function AddItem(db: Db, body: ItemBody, file: Option<string>, caller: Option<Claims>,
                   parseDate: string -> Option<Calendar.Date>, parseFloat: string -> real,
                   serviceText: Option<string>, forumText: Option<string>): (r: Step<AddOutcome>)
    ensures caller.None? ==> r == Step(ItemError, Unlink(db, file))
    ensures caller.Some? && caller.value.userId.None? ==> r == Step(UserIdRequired, db)
    ensures caller.Some? && caller.value.userId.Some? &&
            (BadDate(body.purchaseDate, parseDate) || BadDate(body.lastServiceDate, parseDate)) ==>
      r == Step(ItemError, Unlink(db, file))
    ensures r.out == ItemError ==> r.db == Unlink(db, file)
    ensures r.out.ItemAdded? <==>
      caller.Some? && caller.value.userId.Some? &&
      !BadDate(body.purchaseDate, parseDate) && !BadDate(body.lastServiceDate, parseDate) &&
      GenerateItemData(body.isSubscribed, serviceText, forumText).Some?
    ensures r.out == EnrichmentFailed || r.out.ItemAdded? ==>
      && caller.Some? && caller.value.userId.Some?
      && r.db == db.(items := r.db.items, nextId := db.nextId + 1)
      && |r.db.items| == |db.items| + 1
      && r.db.items[..|db.items|] == db.items
      && var item := r.db.items[|db.items|];
      && item.id == db.nextId
      && item.userId == caller.value.userId.value
      && item.fields == FieldsOf(body, parseDate, parseFloat)
      && item.isSubscribed == 1
      && item.price == ItemPrice
      && item.imageUrl == file
    ensures r.out == EnrichmentFailed <==>
      caller.Some? && caller.value.userId.Some? &&
      !BadDate(body.purchaseDate, parseDate) && !BadDate(body.lastServiceDate, parseDate) &&
      GenerateItemData(body.isSubscribed, serviceText, forumText).None?
    ensures r.out == EnrichmentFailed ==>
      r.db.items[|db.items|].serviceIntervals.None? && r.db.items[|db.items|].forumSuggestions.None?
    ensures r.out.ItemAdded? ==>
      && var g := GenerateItemData(body.isSubscribed, serviceText, forumText).value;
      && r.out.item == r.db.items[|db.items|]
      && r.out.item.serviceIntervals == Some(g.serviceIntervals)
      && r.out.item.forumSuggestions == Some(g.forumSuggestions)
      && r.out.imageUrl == if file.Some? then Some(UploadsUrl + file.value) else None
  {
    if caller.None? then Step(ItemError, Unlink(db, file))
    else if caller.value.userId.None? then Step(UserIdRequired, db)
    else if BadDate(body.purchaseDate, parseDate) || BadDate(body.lastServiceDate, parseDate) then
      Step(ItemError, Unlink(db, file))
    else
      var created := Item(db.nextId, caller.value.userId.value, FieldsOf(body, parseDate, parseFloat),
                          1, ItemPrice, file, None, None);
      var n := |db.items|;
      var afterCreate := db.(items := db.items + [created], nextId := db.nextId + 1);
      match GenerateItemData(body.isSubscribed, serviceText, forumText)
      case None => Step(EnrichmentFailed, afterCreate)
      case Some(g) =>
        var updated := created.(serviceIntervals := Some(g.serviceIntervals),
                                forumSuggestions := Some(g.forumSuggestions));
        var imageUrl := if file.Some? then Some(UploadsUrl + file.value) else None;
        Step(ItemAdded(updated, imageUrl), afterCreate.(items := db.items + [updated]))
  }
}

=== FILE: items_proofs.dfy ===
/** Properties of `addItem` that relate several calls or hold of every
    store. */
module ItemsProofs {
  import opened Common
  import opened Store
  import opened Items
  import Calendar

  /** Whatever the completion's lines are, those lines are what the item
      stores: splitting undoes the join. */
  lemma CompletionLinesStored(db: Db, body: ItemBody, file: Option<string>, caller: Option<Claims>,
                              parseDate: string -> Option<Calendar.Date>, parseFloat: string -> real,
                              lines: seq<string>, forumText: Option<string>)
    requires |lines| >= 1 && forall i :: 0 <= i < |lines| ==> '\n' !in lines[i]
    ensures var r := AddItem(db, body, file, caller, parseDate, parseFloat, Some(Join(lines, '\n')), forumText);
      r.out.ItemAdded? ==> r.out.item.serviceIntervals == Some(lines)
  {
    SplitJoin(lines, '\n');
  }

  /** A body whose `is_subscribed` is text (every multipart body) never
      gets forum suggestions, and the forum completion does not matter. */
  lemma TextFlagNeverGetsForums(db: Db, body: ItemBody, file: Option<string>, caller: Option<Claims>,
                                parseDate: string -> Option<Calendar.Date>, parseFloat: string -> real,
                                serviceText: Option<string>, forumA: Option<string>, forumB: Option<string>)
    requires body.isSubscribed.Text?
    ensures AddItem(db, body, file, caller, parseDate, parseFloat, serviceText, forumA)
         == AddItem(db, body, file, caller, parseDate, parseFloat, serviceText, forumB)
    ensures var r := AddItem(db, body, file, caller, parseDate, parseFloat, serviceText, forumA);
      r.out.ItemAdded? ==> r.out.item.forumSuggestions == Some([])
  {
  }

  /** When the enrichment fails the item and its uploaded image both stay,
      though the request is answered with an error. */
  lemma FailedEnrichmentKeepsItemAndImage(db: Db, body: ItemBody, file: Option<string>, caller: Option<Claims>,
                                          parseDate: string -> Option<Calendar.Date>, parseFloat: string -> real,
                                          serviceText: Option<string>, forumText: Option<string>)
    ensures var r := AddItem(db, body, file, caller, parseDate, parseFloat, serviceText, forumText);
      r.out == EnrichmentFailed ==>
        && r.out.Status() == 500
        && r.db.uploads == db.uploads
        && exists i :: 0 <= i < |r.db.items| && r.db.items[i].id == db.nextId && r.db.items[i].imageUrl == file
  {
    var r := AddItem(db, body, file, caller, parseDate, parseFloat, serviceText, forumText);
    if r.out == EnrichmentFailed {
      assert r.db.items[|db.items|].id == db.nextId;
    }
  }

  /** Adding an item keeps the unique constraints and the id counter. */
  lemma AddItemKeepsValid(db: Db, body: ItemBody, file: Option<string>, caller: Option<Claims>,
                          parseDate: string -> Option<Calendar.Date>, parseFloat: string -> real,
                          serviceText: Option<string>, forumText: Option<string>)
    requires Valid(db)
    ensures Valid(AddItem(db, body, file, caller, parseDate, parseFloat, serviceText, forumText).db)
  {
  }
}

=== FILE: middleware.dfy ===
/** The three request guards: `authUser` (a bearer token in the
    Authorization header), `verifyUser` and `verifyAdmin` (a token in the
    `token` cookie). Each either passes the request on, with the token's
    user id, answers it with an error status, or throws before answering.

    The token verifier is a parameter: the token's claims, or nothing when
    verification throws (bad signature, expired, malformed). */
module Middleware {
  import opened Common
  import opened Store

  /** Whether a guard calls `next()`, answers the request itself, or throws
      before doing either. A cookie guard reads `req.cookies` outside its
      `try`, so without a cookie parser it throws and its promise rejects.
      What the client then sees depends on the framework version, which is
      not part of this model. */
  datatype Verdict = Next | Reply(status: int) | Thrown

  /** A guard's verdict together with the `req.userId` it leaves behind
      (`None` when it never assigns it, or assigns a token without one). */
  datatype Gate = Gate(verdict: Verdict, userId: Option<Id>)
  {
    predicate Pass() { verdict.Next? }
  }

  function Deny(status: int): Gate {
    Gate(Reply(status), None)
  }

  function Pass(userId: Option<Id>): Gate {
    Gate(Next, userId)
  }

  /** The guard threw on an undefined `req.cookies`. */
  const Throws: Gate := Gate(Thrown, None)

  const BearerPrefix: string := "Bearer "
  const AdminRole: string := "admin"

  /** The token `authUser` takes from a bearer header: the second
      space-separated field, which the prefix guarantees to exist. */
  function BearerToken(header: string): (t: string)
    requires StartsWith(header, BearerPrefix)
    ensures SecondField(header) == Some(t)
    ensures ' ' !in t
  {
    assert header[6] == ' ';
    SecondField(header).value
  }

  /** `authUser`. */
  function AuthUser(header: Option<string>, verify: string -> Option<Claims>): (g: Gate)
    ensures !Truthy(header) || !StartsWith(header.value, BearerPrefix) ==> g == Deny(401)
    ensures Truthy(header) && StartsWith(header.value, BearerPrefix) ==>
      var t := BearerToken(header.value);
      t != [] && verify(t).None? ==> g == Deny(401)
    ensures g == Deny(400) <==>
      Truthy(header) && StartsWith(header.value, BearerPrefix) && BearerToken(header.value) == []
    ensures g.Pass() <==>
      && Truthy(header) && StartsWith(header.value, BearerPrefix)
      && var t := BearerToken(header.value);
      && t != [] && verify(t).Some?
    ensures g.Pass() ==> g.userId == verify(BearerToken(header.value)).value.userId
  {
    if !Truthy(header) || !StartsWith(header.value, BearerPrefix) then Deny(401)
    else
      var token := BearerToken(header.value);
      if token == [] then Deny(400)
      else
        match verify(token)
        case None => Deny(401)
        case Some(c) => Pass(c.userId)
  }

  /** `verifyUser`: a verified token must also carry a user id. `parsed`
      says whether a cookie parser filled in `req.cookies`; `jar` is what
      the client sent. */
  function VerifyUser(parsed: bool, jar: Cookies, verify: string -> Option<Claims>): (g: Gate)
    ensures g == Throws <==> !parsed
    ensures parsed ==>
      var token := Cookie(jar, "token");
      && (g == Deny(400) <==> !Truthy(token))
      && (Truthy(token) && verify(token.value).None? ==> g == Deny(401))
      && (g.Pass() <==> Truthy(token) && verify(token.value).Some? && verify(token.value).value.userId.Some?)
      && (g.Pass() ==> g.userId == verify(token.value).value.userId && g.userId.Some?)
      && (!g.Pass() ==> g.verdict.Reply? && g.verdict.status in {400, 401})
  {
    if !parsed then Throws
    else
      var token := Cookie(jar, "token");
      if !Truthy(token) then Deny(400)
      else
        match verify(token.value)
        case None => Deny(401)
        case Some(c) => if c.userId.None? then Deny(401) else Pass(c.userId)
  }

  /** `verifyAdmin` as written: only a truthy role other than "admin" is
      refused, so a token with no role claim at all is let through. */
  function VerifyAdmin(parsed: bool, jar: Cookies, verify: string -> Option<Claims>): (g: Gate)
    ensures g == Throws <==> !parsed
    ensures parsed ==>
      var token := Cookie(jar, "token");
      && (g == Deny(400) <==> !Truthy(token))
      && (g.Pass() <==>
            && Truthy(token) && verify(token.value).Some?
            && var role := verify(token.value).value.role;
            && (!Truthy(role) || role.value == AdminRole))
      && (Truthy(token) && verify(token.value).None? ==> g == Deny(401))
      && (Truthy(token) && verify(token.value).Some? ==> g.userId == verify(token.value).value.userId)
      && (!g.Pass() ==> g.verdict.Reply? && g.verdict.status in {400, 401})
  {
    if !parsed then Throws
    else
      var token := Cookie(jar, "token");
      if !Truthy(token) then Deny(400)
      else
        match verify(token.value)
        case None => Deny(401)
        case Some(c) => Gate(if Truthy(c.role) && c.role.value != AdminRole then Reply(401) else Next, c.userId)
  }

  /** The admin guard as its comment describes it: only a token whose role
      claim is "admin" passes. */
  function VerifyAdminStrict(parsed: bool, jar: Cookies, verify: string -> Option<Claims>): (g: Gate)
    ensures g == Throws <==> !parsed
    ensures parsed ==>
      var token := Cookie(jar, "token");
      && (g == Deny(400) <==> !Truthy(token))
      && (g.Pass() <==> Truthy(token) && verify(token.value).Some? && verify(token.value).value.role == Some(AdminRole))
      && (g.Pass() ==> g.userId == verify(token.value).value.userId)
      && (!g.Pass() ==> g.verdict.Reply? && g.verdict.status in {400, 401})
  {
    if !parsed then Throws
    else
      var token := Cookie(jar, "token");
      if !Truthy(token) then Deny(400)
      else
        match verify(token.value)
        case None => Deny(401)
        case Some(c) => Gate(if c.role != Some(AdminRole) then Reply(401) else Next, c.userId)
  }
}

=== FILE: middleware_proofs.dfy ===
/** Properties of the guards, alone and together with the tokens the
    handlers issue. `verify(s) == Some(c)` stands for "s is a token signed
    over the claims c with the guards' key". */
module MiddlewareProofs {
  import opened Common
  import opened Store
  import opened Middleware
  import Registration
  import Admin

  /** The bearer token is the header's text after the prefix, up to the
      next space. */
  lemma {:induction false} BearerTokenIsFirstWord(header: string)
    requires StartsWith(header, BearerPrefix)
    ensures BearerToken(header) == TakeUntil(header[|BearerPrefix|..], ' ')
  {
    var rest := header[|BearerPrefix|..];
    assert header == "Bearer" + [' '] + rest;
    SplitAround("Bearer", ' ', rest);
    SplitNoSeparator("Bearer", ' ');
    SplitHead(rest, ' ');
  }

  /** A header built from a token gives that token back: `authUser` passes
      exactly the tokens the verifier accepts. */
  lemma {:induction false} BearerHeaderRoundTrip(token: string, verify: string -> Option<Claims>)
    requires token != [] && ' ' !in token
    ensures AuthUser(Some(BearerPrefix + token), verify) ==
      if verify(token).Some? then Pass(verify(token).value.userId) else Deny(401)
  {
    var header := BearerPrefix + token;
    assert StartsWith(header, BearerPrefix);
    assert header[|BearerPrefix|..] == token;
    BearerTokenIsFirstWord(header);
    SplitNoSeparator(token, ' ');
    SplitHead(token, ' ');
  }

  /** `registerUserStep3` and `authUser` read the same token out of a bearer
      header. */
  lemma SameHeaderToken(header: string)
    requires StartsWith(header, BearerPrefix)
    ensures Registration.HeaderToken(Some(header)) == Some(BearerToken(header))
  {
  }

  /** With a cookie parser mounted, the corrected login's cookie passes
      `verifyUser` with the user's id. */
  lemma LoginCookiePassesVerifyUser(db: Db, jar: Cookies, email: Option<string>,
                                    password: Value, compare: (string, string) -> bool,
                                    sign: Claims -> string, verify: string -> Option<Claims>)
    requires forall c :: sign(c) != [] && verify(sign(c)) == Some(c)
    ensures var r := Registration.AuthenticateUser(db, jar, email, password, compare, sign);
      r.out.LoggedIn? ==>
        && "token" in r.jar
        && VerifyUser(true, r.jar, verify) == Pass(r.out.token.userId)
        && r.out.token.userId == Some(db.users[Registration.FindUser(db, email.value).value].id)
  {
  }

  /** With a cookie parser mounted, the token `verifyOTP` hands out, which
      carries no role claim, passes the admin guard as written, while the
      strict guard refuses it. */
  lemma OtpTokenPassesAdminGate(db: Db, otp: Value, email: Option<string>, now: int,
                                jar: Cookies, verify: string -> Option<Claims>)
    requires Registration.VerifyOtp(db, otp, email, now).out.OtpVerified?
    requires Truthy(Cookie(jar, "token"))
    requires verify(jar["token"]) == Some(Registration.VerifyOtp(db, otp, email, now).out.token)
    ensures VerifyAdmin(true, jar, verify).Pass()
    ensures VerifyAdminStrict(true, jar, verify).verdict == Reply(401)
  {
  }

  /** A concrete instance, with a cookie parser mounted: an account that has
      only verified its OTP gets through the admin guard as written. */
  lemma OtpTokenPassesAdminGateExample()
    ensures var db := Db([], map["a@x.com" := Temp("1234", 100)], [], [], [], [], [], {}, 7);
      var r := Registration.VerifyOtp(db, Text("1234"), Some("a@x.com"), 0);
      var verify := (s: string) => if s == "t" then Some(Claims(Some(7), Some("a@x.com"), None, None)) else None;
      && r.out == Registration.OtpVerified(Claims(Some(7), Some("a@x.com"), None, None))
      && VerifyAdmin(true, map["token" := "t"], verify) == Pass(Some(7))
      && VerifyAdminStrict(true, map["token" := "t"], verify) == Gate(Reply(401), Some(7))
  {
    var db := Db([], map["a@x.com" := Temp("1234", 100)], [], [], [], [], [], {}, 7);
    assert !EmailRegistered(db, "a@x.com");
  }

  /** With a cookie parser mounted, an admin whose role column is anything
      but "admin" (the column default included) is refused by the admin
      guard, under either reading, even holding the token `loginAdmin`
      issues; `req.userId` is set all the same. */
  lemma AdminLoginTokenRefused(db: Db, email: Option<string>, password: Value,
                               compare: (string, string) -> bool, jar: Cookies,
                               verify: string -> Option<Claims>)
    requires Admin.LoginAdmin(db, email, password, compare).AdminLoggedIn?
    requires var c := Admin.LoginAdmin(db, email, password, compare).token;
      && c.role.Some? && c.role.value != [] && c.role.value != AdminRole
    requires Truthy(Cookie(jar, "token"))
    requires verify(jar["token"]) == Some(Admin.LoginAdmin(db, email, password, compare).token)
    ensures VerifyAdmin(true, jar, verify) ==
      Gate(Reply(401), Admin.LoginAdmin(db, email, password, compare).token.userId)
    ensures VerifyAdminStrict(true, jar, verify).verdict == Reply(401)
  {
  }

  /** Whatever the verifier, the strict guard passes no more than the guard
      as written. */
  lemma StrictGuardIsStricter(parsed: bool, jar: Cookies, verify: string -> Option<Claims>)
    ensures VerifyAdminStrict(parsed, jar, verify).Pass() ==>
      VerifyAdmin(parsed, jar, verify) == VerifyAdminStrict(parsed, jar, verify)
  {
  }

  /** As the application is wired, with no cookie parser, no cookie guard
      ever lets a request through or answers it, whatever cookies the client
      sends: not the corrected login's token, not the OTP token. */
  lemma GuardsThrowWithoutParser(jar: Cookies, verify: string -> Option<Claims>)
    ensures VerifyUser(false, jar, verify) == Throws && !VerifyUser(false, jar, verify).Pass()
    ensures VerifyAdmin(false, jar, verify) == Throws && !VerifyAdmin(false, jar, verify).Pass()
    ensures VerifyAdminStrict(false, jar, verify) == Throws
  {
  }
}

=== FILE: payments.dfy ===
/** The payment flow of `stripe.controller.js`: creating a payment intent
    (validation only; the provider call is a parameter) and reconciling the
    provider's webhook events into the user, subscription and payment
    transaction tables.

    The provider's signature check (`constructEvent`) is a parameter that
    yields the parsed event or nothing; the clock is today's date. The
    provider keeps metadata values as strings, and the reconciler hands
    those strings to Prisma unconverted, so how Prisma reads them as ids is
    a parameter too (`KeyReader`). */
module Payments {
  import opened Common
  import opened Store
  import opened Calendar
  import Table

  const SucceededEvent: string := "payment_intent.succeeded"
  const FailedEvent: string := "payment_intent.payment_failed"
  const HalfYearlyPlan: string := "HalfYearly"

  /** The metadata a payment intent carries back to the webhook: the
      provider turns every value into a string and leaves out undefined
      ones. */
  datatype Metadata = Metadata(userId: Option<string>, serviceId: Option<string>, plan: Option<string>)

  /** The payment-intent object of an event. */
  datatype Intent = Intent(metadata: Metadata, amount: int, currency: string, status: string, paymentMethod: string)

  /** A verified provider event: its type and its payment intent. */
  datatype Event = Event(kind: string, intent: Intent)

  // ---------------------------------------------------------------------
  // Subscription end date

  /** `calculateSubscriptionEndDate`: six calendar months later for the
      "HalfYearly" plan, one year later for any other (or no) plan. The start
      date itself is a value and is left as it was. */
  function CalculateSubscriptionEndDate(start: Date, plan: Option<string>): (end: Date)
    requires ValidDate(start)
    ensures ValidDate(end)
    ensures Before(start, end)
  {
    if plan == Some(HalfYearlyPlan) then
      var end := SetMonth(start, start.month + 6);
      LaterMonthIsLater(start, end);
      end
    else
      var end := SetFullYear(start, start.year + 1);
      LaterMonthIsLater(start, end);
      end
  }

  /** For the half-yearly plan the end date is the day number of the start
      counted from the first of the month six months on. */
  lemma SixMonthsOnIsMakeDate(start: Date)
    requires ValidDate(start)
    ensures var t := start.month + 6;
      CalculateSubscriptionEndDate(start, Some(HalfYearlyPlan)) == MakeDate(start.year + t / 12, t % 12, start.day)
  {
  }

  /** A day number of at most 31 counted from the first of a month: the
      same day when the month is long enough, otherwise at most three days
      into the next month, which is in the same year. */
  lemma DayOfMonthOrOverflow(y: int, m: int, day: int)
    requires 0 <= m < 12 && 1 <= day <= 31
    ensures MakeDate(y, m, day) == AddDays(Date(y, m, 1), day - 1)
    ensures day <= DaysInMonth(y, m) ==> MakeDate(y, m, day) == Date(y, m, day)
    ensures day > DaysInMonth(y, m) ==>
      && m < 11 && day - DaysInMonth(y, m) <= 3
      && MakeDate(y, m, day) == Date(y, m + 1, day - DaysInMonth(y, m))
  {
    MakeDateIsDayOffset(y, m, day);
    if day > DaysInMonth(y, m) {
      var rest := day - DaysInMonth(y, m);
      assert rest <= DaysInMonth(y, m + 1);
    }
  }

  /** HalfYearly: the same day six months on, or, when that month is too
      short, the overflow days into the month after it (at most three). In
      either case the end is `start.day - 1` days after the first of the
      month six months on. */
  lemma HalfYearlyEnd(start: Date)
    requires ValidDate(start)
    ensures var t := start.month + 6;
      var y := start.year + t / 12;
      var m := t % 12;
      var end := CalculateSubscriptionEndDate(start, Some(HalfYearlyPlan));
      && end == AddDays(Date(y, m, 1), start.day - 1)
      && (start.day <= DaysInMonth(y, m) ==> end == Date(y, m, start.day))
      && (start.day > DaysInMonth(y, m) ==>
            m < 11 && end == Date(y, m + 1, start.day - DaysInMonth(y, m)) && end.day <= 3)
  {
    var t := start.month + 6;
    var y := start.year + t / 12;
    var m := t % 12;
    SixMonthsOnIsMakeDate(start);
    DayOfMonthOrOverflow(y, m, start.day);
  }

  /** A year divisible by 400 is divisible by 4. */
  lemma CenturyLeapIsQuadrennial(x: int)
    ensures x % 400 == 0 ==> x % 4 == 0
  {
    if x % 400 == 0 {
      var r := x / 400;
      assert x == 4 * (100 * r);
    }
  }

  /** The year after a leap year is not one. */
  lemma LeapYearIsFollowedByCommonYear(y: int)
    requires IsLeapYear(y)
    ensures !IsLeapYear(y + 1)
  {
    CenturyLeapIsQuadrennial(y);
    var q := y / 4;
    assert y == 4 * q;
    assert (y + 1) % 4 == 1;
    CenturyLeapIsQuadrennial(y + 1);
  }

  /** Any other plan: the same month and day a year on, except that 29
      February rolls over to 1 March. */
  lemma YearlyEnd(start: Date, plan: Option<string>)
    requires ValidDate(start) && plan != Some(HalfYearlyPlan)
    ensures var end := CalculateSubscriptionEndDate(start, plan);
      && end == AddDays(Date(start.year + 1, start.month, 1), start.day - 1)
      && (start.month == 1 && start.day == 29 ==> end == Date(start.year + 1, 2, 1))
      && (!(start.month == 1 && start.day == 29) ==> end == Date(start.year + 1, start.month, start.day))
  {
    var y := start.year + 1;
    assert CalculateSubscriptionEndDate(start, plan) == MakeDate(y, start.month, start.day);
    MakeDateIsDayOffset(y, start.month, start.day);
    if start.month == 1 && start.day == 29 {
      LeapYearIsFollowedByCommonYear(start.year);
      assert DaysInMonth(y, 1) == 28;
      assert MakeDate(y, 1, 29) == MakeDate(y, 2, 1);
    } else if start.month == 1 {
      assert start.day <= 28 <= DaysInMonth(y, 1);
    } else {
      assert DaysInMonth(y, start.month) == DaysInMonth(start.year, start.month);
    }
  }

  // ---------------------------------------------------------------------
  // createPaymentIntent

  datatype IntentOutcome =
    | IntentFieldsMissing
    | ServiceNotFound
    | ProviderError
    | IntentCreated(clientSecret: string, metadata: Metadata)
  {
    function Status(): int {
      match this
      case IntentFieldsMissing => 400
      case ServiceNotFound => 404
      case ProviderError => 500
      case IntentCreated(_, _) => 200
    }
  }

  function FindService(db: Db, id: Id): (r: Option<nat>)
    ensures r.Some? ==> r.value < |db.services| && db.services[r.value].id == id
    ensures r.None? <==> forall i :: 0 <= i < |db.services| ==> db.services[i].id != id
  {
    Table.Find(db.services, (s: Service) => s.id == id)
  }

  /** `createPaymentIntent`. `caller` is the decoded `req.user` (absent when
      no middleware set it), `provider` is the provider's client secret, or
      nothing when the call throws, and `stringify` is how the provider
      writes an id into metadata (`String(id)`). It returns no store: the
      handler writes nothing locally. */
  function CreatePaymentIntent(db: Db, caller: Option<Claims>, paymentMethodId: Option<string>,
                               currency: Option<string>, serviceId: Option<Id>,
                               provider: Option<string>, stringify: Id -> string): (r: IntentOutcome)
    ensures r == IntentFieldsMissing <==> !Truthy(paymentMethodId) || !Truthy(currency) || serviceId.None?
    ensures r == ServiceNotFound <==>
      && Truthy(paymentMethodId) && Truthy(currency) && serviceId.Some?
      && FindService(db, serviceId.value).None?
    ensures r == ProviderError <==>
      && Truthy(paymentMethodId) && Truthy(currency) && serviceId.Some?
      && FindService(db, serviceId.value).Some? && provider.None?
    ensures r.IntentCreated? <==>
      && Truthy(paymentMethodId) && Truthy(currency) && serviceId.Some?
      && FindService(db, serviceId.value).Some? && provider.Some?
    ensures r.IntentCreated? ==>
      && provider == Some(r.clientSecret)
      && var s := db.services[FindService(db, serviceId.value).value];
      && r.metadata.serviceId == Some(stringify(serviceId.value))
      && r.metadata.plan == Some(s.plan)
      && (r.metadata.userId.Some? <==> caller.Some? && caller.value.userId.Some?)
      && (r.metadata.userId.Some? ==> r.metadata.userId.value == stringify(caller.value.userId.value))
  {
    if !Truthy(paymentMethodId) || !Truthy(currency) || serviceId.None? then IntentFieldsMissing
    else
      match FindService(db, serviceId.value)
      case None => ServiceNotFound
      case Some(k) =>
        var userId := if caller.Some? && caller.value.userId.Some? then Some(stringify(caller.value.userId.value)) else None;
        match provider
        case None => ProviderError
        case Some(secret) =>
          IntentCreated(secret, Metadata(userId, Some(stringify(serviceId.value)), Some(db.services[k].plan)))
  }

  // ---------------------------------------------------------------------
  // Webhook reconciliation

  /** What `handlePaymentIntentSucceeded` got done. Whatever it is, the
      webhook still acknowledges the event. */
  datatype Reconciled =
    | NoUserId
    | UserIdRejected
    | UnknownUser
    | UpgradedWithoutService
    | Subscribed(subscriptionId: Id, transactionId: Id)

  /** The user update the succeeded handler makes first. */
  function Upgrade(u: User): User {
    u.(role := PremiumRole, isSubscribed := 1)
  }

  /** `handlePaymentIntentSucceeded`. `key` is how Prisma reads the metadata
      strings as ids. The user is upgraded before the service is looked up;
      a user id Prisma rejects, or an unknown user, makes the update throw,
      and a missing or rejected service id makes the lookup throw, all inside
      the handler's own catch. */
  function HandlePaymentIntentSucceeded(db: Db, intent: Intent, today: Date, key: KeyReader): (r: Step<Reconciled>)
    requires ValidDate(today)
    ensures r.out == NoUserId <==> !Truthy(intent.metadata.userId)
    ensures r.out == UserIdRejected <==> Truthy(intent.metadata.userId) && key(intent.metadata.userId.value).None?
    ensures r.out == UnknownUser <==>
      ReadKey(intent.metadata.userId, key).Some? && FindUserById(db, ReadKey(intent.metadata.userId, key).value).None?
    ensures r.out in {NoUserId, UserIdRejected, UnknownUser} ==> r.db == db
    ensures r.out.UpgradedWithoutService? || r.out.Subscribed? ==>
      && ReadKey(intent.metadata.userId, key).Some?
      && var uid := ReadKey(intent.metadata.userId, key).value;
      && FindUserById(db, uid).Some?
      && r.db.users == Table.Update(db.users, WithId(uid), Upgrade)
    ensures r.out.UpgradedWithoutService? ==>
      && r.db == db.(users := r.db.users)
      && (ReadKey(intent.metadata.serviceId, key).None? ||
          FindService(db, ReadKey(intent.metadata.serviceId, key).value).None?)
    ensures r.out.Subscribed? ==>
      && ReadKey(intent.metadata.serviceId, key).Some?
      && FindService(db, ReadKey(intent.metadata.serviceId, key).value).Some?
      && var service := db.services[FindService(db, ReadKey(intent.metadata.serviceId, key).value).value];
      && var uid := ReadKey(intent.metadata.userId, key).value;
      && var plan := intent.metadata.plan;
      && var sub := Subscription(db.nextId, service.id, uid, plan, today,
                                 CalculateSubscriptionEndDate(today, plan), PremiumRole, service.price);
      && var txn := PaymentTransaction(db.nextId + 1, uid, intent.amount, intent.currency,
                                       intent.status, intent.paymentMethod, sub.id);
      && r.out == Subscribed(sub.id, txn.id)
      && r.db == db.(users := r.db.users,
                     subscriptions := db.subscriptions + [sub],
                     transactions := db.transactions + [txn],
                     nextId := db.nextId + 2)
  {
    var m := intent.metadata;
    if !Truthy(m.userId) then Step(NoUserId, db)
    else
      match key(m.userId.value)
      case None => Step(UserIdRejected, db)
      case Some(uid) =>
        if FindUserById(db, uid).None? then Step(UnknownUser, db)
        else
          var upgraded := db.(users := Table.Update(db.users, WithId(uid), Upgrade));
          match ReadKey(m.serviceId, key)
          case None => Step(UpgradedWithoutService, upgraded)
          case Some(sid) =>
            match FindService(db, sid)
            case None => Step(UpgradedWithoutService, upgraded)
            case Some(k) =>
              var service := db.services[k];
              var sub := Subscription(upgraded.nextId, sid, uid, m.plan, today,
                                      CalculateSubscriptionEndDate(today, m.plan), PremiumRole, service.price);
              var txn := PaymentTransaction(upgraded.nextId + 1, uid, intent.amount, intent.currency,
                                            intent.status, intent.paymentMethod, sub.id);
              Step(Subscribed(sub.id, txn.id),
                   upgraded.(subscriptions := upgraded.subscriptions + [sub],
                             transactions := upgraded.transactions + [txn],
                             nextId := upgraded.nextId + 2))
  }

  /** `handlePaymentIntentFailed` only logs. */
  function HandlePaymentIntentFailed(db: Db, intent: Intent): (r: Db)
    ensures r == db
  {
    db
  }

  datatype WebhookReply = SignatureRejected | Received
  {
    function Status(): int {
      if Received? then 200 else 400
    }
  }

  /** `handleWebhook`. `event` is the outcome of the signature check over the
      raw body: the parsed event, or nothing when the check throws. */
  function HandleWebhook(db: Db, event: Option<Event>, today: Date, key: KeyReader): (r: Step<WebhookReply>)
    requires ValidDate(today)
    ensures event.None? <==> r.out == SignatureRejected
    ensures event.None? ==> r.db == db
    ensures event.Some? && event.value.kind != SucceededEvent ==> r.db == db
    ensures event.Some? && event.value.kind == SucceededEvent ==>
      r.db == HandlePaymentIntentSucceeded(db, event.value.intent, today, key).db
  {
    match event
    case None => Step(SignatureRejected, db)
    case Some(e) =>
      if e.kind == SucceededEvent then Step(Received, HandlePaymentIntentSucceeded(db, e.intent, today, key).db)
      else if e.kind == FailedEvent then Step(Received, HandlePaymentIntentFailed(db, e.intent))
      else Step(Received, db)
  }
}

=== FILE: payments_proofs.dfy ===
/** Properties of the webhook reconciler that relate several handlers or
    hold of every store. */
module PaymentsProofs {
  import opened Common
  import opened Store
  import opened Calendar
  import opened Payments
  import Table

  /** The succeeded handler touches only the paying user's role and
      subscription flag; every other user row, and every other column, is
      as it was. */
  lemma SucceededTouchesOnlyThePayer(db: Db, intent: Intent, today: Date, key: KeyReader)
    requires ValidDate(today)
    ensures var r := HandlePaymentIntentSucceeded(db, intent, today, key);
      && |r.db.users| == |db.users|
      && forall i :: 0 <= i < |db.users| ==>
           if ReadKey(intent.metadata.userId, key) == Some(db.users[i].id) then
             r.db.users[i] == db.users[i].(role := PremiumRole, isSubscribed := 1)
           else r.db.users[i] == db.users[i]
  {
  }

  /** The reconciler keeps the unique constraints and the id counter. */
  lemma {:induction false} WebhookKeepsValid(db: Db, event: Option<Event>, today: Date, key: KeyReader)
    requires Valid(db) && ValidDate(today)
    ensures Valid(HandleWebhook(db, event, today, key).db)
  {
    var r := HandleWebhook(db, event, today, key);
    if event.Some? && event.value.kind == SucceededEvent {
      var s := HandlePaymentIntentSucceeded(db, event.value.intent, today, key);
      assert r.db == s.db;
      if s.out.UpgradedWithoutService? || s.out.Subscribed? {
        var uid := ReadKey(event.value.intent.metadata.userId, key).value;
        assert s.db.users == Table.Update(db.users, WithId(uid), Upgrade);
        forall i | 0 <= i < |s.db.users|
          ensures s.db.users[i].id == db.users[i].id && s.db.users[i].email == db.users[i].email
        {
        }
      }
    }
  }

  /** On the full success path exactly one subscription and exactly one
      transaction are added, and the transaction points at the subscription. */
  lemma SubscribedAddsOneLinkedPair(db: Db, event: Option<Event>, today: Date, key: KeyReader)
    requires ValidDate(today)
    requires event.Some? && event.value.kind == SucceededEvent
    requires HandlePaymentIntentSucceeded(db, event.value.intent, today, key).out.Subscribed?
    ensures var r := HandleWebhook(db, event, today, key);
      && r.out == Received
      && |r.db.subscriptions| == |db.subscriptions| + 1
      && |r.db.transactions| == |db.transactions| + 1
      && r.db.subscriptions[..|db.subscriptions|] == db.subscriptions
      && r.db.transactions[..|db.transactions|] == db.transactions
      && var sub := r.db.subscriptions[|db.subscriptions|];
      && var txn := r.db.transactions[|db.transactions|];
      && txn.subscriptionId == sub.id
      && txn.userId == sub.userId == ReadKey(event.value.intent.metadata.userId, key).value
      && sub.status == PremiumRole
      && sub.endDate == CalculateSubscriptionEndDate(sub.startDate, event.value.intent.metadata.plan)
      && Before(sub.startDate, sub.endDate)
  {
  }

  /** An intent created without an authenticated caller carries no user id,
      so its succeeded event is acknowledged and changes nothing. */
  lemma AnonymousIntentNeverReconciles(
    db: Db, paymentMethodId: Option<string>, currency: Option<string>, serviceId: Option<Id>,
    provider: Option<string>, stringify: Id -> string, amount: int, txCurrency: string, status: string,
    paymentMethod: string, today: Date, key: KeyReader)
    requires ValidDate(today)
    ensures var created := CreatePaymentIntent(db, None, paymentMethodId, currency, serviceId, provider, stringify);
      created.IntentCreated? ==>
        var event := Event(SucceededEvent, Intent(created.metadata, amount, txCurrency, status, paymentMethod));
        HandleWebhook(db, Some(event), today, key) == Step(Received, db)
  {
  }

  /** When Prisma reads back the strings the provider wrote (a text id
      column), an intent created for a known caller and service, once paid,
      yields a subscription to that service with the service's price and
      plan. */
  lemma PaidIntentSubscribes(
    db: Db, caller: Claims, paymentMethodId: Option<string>, currency: Option<string>, serviceId: Option<Id>,
    provider: Option<string>, stringify: Id -> string, amount: int, txCurrency: string, status: string,
    paymentMethod: string, today: Date, key: KeyReader)
    requires ValidDate(today)
    requires caller.userId.Some? && FindUserById(db, caller.userId.value).Some?
    requires forall id: Id :: stringify(id) != "" && key(stringify(id)) == Some(id)
    ensures var created := CreatePaymentIntent(db, Some(caller), paymentMethodId, currency, serviceId, provider, stringify);
      created.IntentCreated? ==>
        var event := Event(SucceededEvent, Intent(created.metadata, amount, txCurrency, status, paymentMethod));
        var r := HandlePaymentIntentSucceeded(db, event.intent, today, key);
        var service := db.services[FindService(db, serviceId.value).value];
        && r.out.Subscribed?
        && r.db.subscriptions[|db.subscriptions|].serviceId == service.id
        && r.db.subscriptions[|db.subscriptions|].price == service.price
        && r.db.subscriptions[|db.subscriptions|].plan == Some(service.plan)
  {
  }

  /** Nothing records which events were already handled: a redelivered
      succeeded event subscribes the user a second time. */
  lemma ReplayedEventSubscribesAgain(db: Db, event: Option<Event>, today: Date, key: KeyReader)
    requires ValidDate(today)
    requires event.Some? && event.value.kind == SucceededEvent
    requires HandlePaymentIntentSucceeded(db, event.value.intent, today, key).out.Subscribed?
    ensures var once := HandleWebhook(db, event, today, key);
      var twice := HandleWebhook(once.db, event, today, key);
      && |twice.db.subscriptions| == |db.subscriptions| + 2
      && |twice.db.transactions| == |db.transactions| + 2
      && twice.db.subscriptions[|db.subscriptions|].userId == twice.db.subscriptions[|db.subscriptions| + 1].userId
  {
    var intent := event.value.intent;
    var uid := ReadKey(intent.metadata.userId, key).value;
    var once := HandleWebhook(db, event, today, key);
    var k := FindUserById(db, uid).value;
    assert once.db.users[k].id == uid;
    assert FindUserById(once.db, uid).Some?;
    assert once.db.services == db.services;
  }

  /** With an integer id column Prisma rejects every metadata string, so no
      event the provider delivers changes the store: not even the paid
      intent of a known caller for a known service. */
  lemma IntegerKeyNeverReconciles(db: Db, event: Option<Event>, today: Date, key: KeyReader)
    requires ValidDate(today)
    requires forall s :: key(s).None?
    ensures HandleWebhook(db, event, today, key).db == db
    ensures event.Some? && event.value.kind == SucceededEvent && Truthy(event.value.intent.metadata.userId) ==>
      HandlePaymentIntentSucceeded(db, event.value.intent, today, key).out == UserIdRejected
  {
  }
}

=== FILE: registration.dfy ===
/** The user-side account flows of `user.controller.js`: the three-step
    OTP registration, login, and the cookie-carried password reset.

    Registration moves an email through the phases
    NoAccount -> Pending -> Verified -> Complete: step 1 files a pending
    record (an OTP and its expiry), OTP verification turns it into a user
    row holding only the email, and step 3 sets name and password.

    The clock (`now`, in milliseconds), the OTP generator, bcrypt and the
    token signer/verifier are parameters. */
module Registration {
  import opened Common
  import opened Store
  import Table

  /** A pending registration lives 15 minutes. */
  const OtpLifetimeMs: int := 15 * 60 * 1000

  const MinPasswordLength: int := 8

  /** A reply that also updates the client's cookies. */
  datatype Exchange<+O> = Exchange(out: O, db: Db, jar: Cookies)

  /** The text `generateOTP` produces: `Math.floor(1000 + Math.random() * 9000)`
      in decimal, so four digits with a non-zero first digit. */
  predicate IsGeneratedOtp(s: string) {
    && |s| == 4
    && '1' <= s[0] <= '9'
    && forall i :: 1 <= i < 4 ==> '0' <= s[i] <= '9'
  }

  /** `findUnique({ where: { email } })` on the user table. */
  function FindUser(db: Db, email: string): (r: Option<nat>)
    ensures r.Some? ==> r.value < |db.users| && db.users[r.value].email == email
    ensures r.None? <==> !EmailRegistered(db, email)
  {
    Table.Find(db.users, WithEmail(email))
  }

  /** Where an email stands in the registration lifecycle. */
  datatype Phase = NoAccount | Pending | Verified | Complete

  function PhaseOf(db: Db, email: string): Phase {
    match FindUser(db, email)
    case Some(i) =>
      if db.users[i].name.Some? && db.users[i].password.Some? then Complete else Verified
    case None => if email in db.temps then Pending else NoAccount
  }

  /** No email is both pending and registered, and every pending OTP is one
      the generator could have produced. */
  predicate Consistent(db: Db) {
    && Valid(db)
    && (forall e :: e in db.temps ==> !EmailRegistered(db, e))
    && (forall e :: e in db.temps ==> IsGeneratedOtp(db.temps[e].otp))
  }

  // ---------------------------------------------------------------------
  // Step 1: request an OTP

  datatype BeginOutcome =
    | EmailRequired
    | AlreadyRegistered
    | OtpStillValid
    | OtpReplaced(otp: string)
    | OtpSent(otp: string)
  {
    /** The outcomes that file a new pending record and mail its OTP. */
    predicate Issued() {
      OtpReplaced? || OtpSent?
    }

    function Status(): int {
      if Issued() then 200 else 400
    }
  }

  /** `registerUserStep1`. `otp` is the generator's output for this call. */
  function RegisterUserStep1(db: Db, email: Option<string>, now: int, otp: string): (r: Step<BeginOutcome>)
    requires IsGeneratedOtp(otp)
    ensures !Truthy(email) ==> r.out == EmailRequired
    ensures Truthy(email) ==>
      (r.out == AlreadyRegistered <==> EmailRegistered(db, email.value))
    ensures Truthy(email) && !EmailRegistered(db, email.value) ==>
      && (r.out == OtpStillValid <==>
            email.value in db.temps && now <= db.temps[email.value].expiresAt)
      && (r.out.OtpReplaced? <==>
            email.value in db.temps && now > db.temps[email.value].expiresAt)
      && (r.out.OtpSent? <==> email.value !in db.temps)
    ensures !r.out.Issued() ==> r.db == db
    ensures r.out.Issued() ==>
      && r.out.otp == otp
      && r.db == db.(temps := db.temps[email.value := Temp(otp, now + OtpLifetimeMs)])
  {
    if !Truthy(email) then Step(EmailRequired, db)
    else
      var e := email.value;
      if FindUser(db, e).Some? then Step(AlreadyRegistered, db)
      else if e in db.temps then
        if now > db.temps[e].expiresAt then
          Step(OtpReplaced(otp), db.(temps := (db.temps - {e})[e := Temp(otp, now + OtpLifetimeMs)]))
        else Step(OtpStillValid, db)
      else Step(OtpSent(otp), db.(temps := db.temps[e := Temp(otp, now + OtpLifetimeMs)]))
  }

  // ---------------------------------------------------------------------
  // Step 2: verify the OTP

  datatype VerifyOutcome =
    | OtpAndEmailRequired
    | NoPendingOtp
    | OtpExpired
    | OtpMismatch
    | CreateFailed
    | OtpVerified(token: Claims)
  {
    /** The `shouldResendOtp` flag of the reply. */
    predicate ShouldResendOtp() {
      OtpExpired?
    }

    function Status(): int {
      if OtpVerified? then 200 else if CreateFailed? then 500 else 400
    }
  }

  /** The row `prisma.user.create({ data: { email } })` inserts. */
  function NewUser(id: Id, email: string): User {
    User(id, email, None, None, USER, DefaultRole, Active, 0, None)
  }

  /** `verifyOTP`. The code is compared with `!==` against the stored text,
      so a code sent as a JSON number never matches. Creating a user whose
      email is already taken violates the unique constraint and surfaces as
      a 500 before the pending record is deleted. */
  function VerifyOtp(db: Db, otp: Value, email: Option<string>, now: int): (r: Step<VerifyOutcome>)
    ensures r.out == OtpAndEmailRequired <==> !otp.Truthy() || !Truthy(email)
    ensures otp.Truthy() && Truthy(email) ==>
      && (r.out == NoPendingOtp <==> email.value !in db.temps)
      && (email.value in db.temps ==>
            && (r.out == OtpExpired <==> now > db.temps[email.value].expiresAt)
            && (r.out == OtpMismatch <==>
                  now <= db.temps[email.value].expiresAt && otp != Text(db.temps[email.value].otp))
            && (r.out == CreateFailed <==>
                  && now <= db.temps[email.value].expiresAt && otp == Text(db.temps[email.value].otp)
                  && EmailRegistered(db, email.value)))
    ensures !r.out.OtpVerified? ==> r.db == db
    ensures r.out.OtpVerified? ==>
      && email.value in db.temps
      && now <= db.temps[email.value].expiresAt
      && otp == Text(db.temps[email.value].otp)
      && !EmailRegistered(db, email.value)
      && r.db == db.(users := db.users + [NewUser(db.nextId, email.value)],
                     temps := db.temps - {email.value},
                     nextId := db.nextId + 1)
      && r.out.token == Claims(Some(db.nextId), Some(email.value), None, None)
  {
    if !otp.Truthy() || !Truthy(email) then Step(OtpAndEmailRequired, db)
    else
      var e := email.value;
      if e !in db.temps then Step(NoPendingOtp, db)
      else if now > db.temps[e].expiresAt then Step(OtpExpired, db)
      else if otp != Text(db.temps[e].otp) then Step(OtpMismatch, db)
      else if FindUser(db, e).Some? then Step(CreateFailed, db)
      else
        var id := db.nextId;
        Step(OtpVerified(Claims(Some(id), Some(e), None, None)),
             db.(users := db.users + [NewUser(id, e)], temps := db.temps - {e}, nextId := id + 1))
  }

  // ---------------------------------------------------------------------
  // Step 3: set name and password

  datatype CompleteOutcome =
    | TokenRequired
    | InvalidToken
    | NameAndPasswordRequired
    | PasswordTooShort
    | HashFailed
    | NoEmailClaim
    | EmailNotRegistered
    | Registered(id: Id)
  {
    function Status(): int {
      match this
      case InvalidToken => 401
      case HashFailed => 500
      case NoEmailClaim => 500
      case Registered(_) => 200
      case _ => 400
    }
  }

  /** The token of an `Authorization` header: its second space-separated field. */
  function HeaderToken(authorization: Option<string>): Option<string> {
    if authorization.Some? then SecondField(authorization.value) else None
  }

  /** The claims of the bearer token in an `Authorization` header, when the
      token is truthy and the verifier accepts it. */
  function HeaderClaims(authorization: Option<string>, verify: string -> Option<Claims>): Option<Claims> {
    var token := HeaderToken(authorization);
    if Truthy(token) then verify(token.value) else None
  }

  /** `registerUserStep3`. `verify` is the token verifier (`None` when it
      throws) and `hash` bcrypt's hash for this call. The checks run in this
      order: token present, token valid, name and password present, password
      length, hashing (bcrypt throws on a password that is not text, which
      the length test lets through because a number has no length), the
      token's email claim (without one the lookup throws), the email's row. */
  function RegisterUserStep3(
    db: Db, authorization: Option<string>, name: Option<string>, password: Value,
    verify: string -> Option<Claims>, hash: string -> string): (r: Step<CompleteOutcome>)
    ensures r.out == TokenRequired <==> !Truthy(HeaderToken(authorization))
    ensures Truthy(HeaderToken(authorization)) ==>
      (r.out == InvalidToken <==> verify(HeaderToken(authorization).value).None?)
    ensures HeaderClaims(authorization, verify).Some? ==>
      && (r.out == NameAndPasswordRequired <==> !Truthy(name) || !password.Truthy())
      && (Truthy(name) && password.Truthy() ==>
            && (r.out == PasswordTooShort <==> password.Text? && |password.s| < MinPasswordLength)
            && (r.out == HashFailed <==> password.Number?))
    ensures HeaderClaims(authorization, verify).Some? && Truthy(name) &&
            password.Text? && |password.s| >= MinPasswordLength ==>
      var email := HeaderClaims(authorization, verify).value.email;
      && (r.out == NoEmailClaim <==> email.None?)
      && (email.Some? ==> (r.out == EmailNotRegistered <==> !EmailRegistered(db, email.value)))
      && (email.Some? ==> (r.out.Registered? <==> EmailRegistered(db, email.value)))
    ensures !r.out.Registered? ==> r.db == db
    ensures r.out.Registered? ==>
      && Truthy(name) && password.Text? && |password.s| >= MinPasswordLength
      && HeaderClaims(authorization, verify).Some?
      && HeaderClaims(authorization, verify).value.email.Some?
      && var email := HeaderClaims(authorization, verify).value.email.value;
      && EmailRegistered(db, email)
      && r.out.id == db.users[FindUser(db, email).value].id
      && r.db == db.(users := r.db.users)
      && |r.db.users| == |db.users|
      && (forall i :: 0 <= i < |db.users| && db.users[i].email != email ==> r.db.users[i] == db.users[i])
      && (forall i :: 0 <= i < |db.users| && db.users[i].email == email ==>
            r.db.users[i] == db.users[i].(name := name, password := Some(hash(password.s))))
  {
    var token := HeaderToken(authorization);
    if !Truthy(token) then Step(TokenRequired, db)
    else
      match verify(token.value)
      case None => Step(InvalidToken, db)
      case Some(claims) =>
        if !Truthy(name) || !password.Truthy() then Step(NameAndPasswordRequired, db)
        else if password.Text? && |password.s| < MinPasswordLength then Step(PasswordTooShort, db)
        else if !password.Text? then Step(HashFailed, db)
        else if claims.email.None? then Step(NoEmailClaim, db)
        else
          var email := claims.email.value;
          match FindUser(db, email)
          case None => Step(EmailNotRegistered, db)
          case Some(i) =>
            var hashed := hash(password.s);
            Step(Registered(db.users[i].id),
                 db.(users := Table.Update(db.users, WithEmail(email),
                                           (u: User) => u.(name := name, password := Some(hashed)))))
  }

  // ---------------------------------------------------------------------
  // Login

  datatype LoginOutcome =
    | CredentialsRequired
    | UserNotFound
    | LoginError
    | WrongCredentials
    | LoggedIn(token: Claims)
  {
    function Status(): int {
      if LoggedIn? then 200 else if LoginError? then 500 else 400
    }
  }

  /** The checks `authenticateUser` makes before it issues a token: either the
      rejection, or the position of the user whose password matched. bcrypt's
      compare throws (500) on a user row without a stored hash and on a
      password that is not a string. */
  datatype CredentialCheck = Rejected(reply: LoginOutcome) | Accepted(index: nat)

  function CheckCredentials(db: Db, email: Option<string>, password: Value,
                            compare: (string, string) -> bool): (c: CredentialCheck)
    ensures c == Rejected(CredentialsRequired) <==> !Truthy(email) || !password.Truthy()
    ensures Truthy(email) && password.Truthy() ==>
      (c == Rejected(UserNotFound) <==> FindUser(db, email.value).None?)
    ensures Truthy(email) && password.Truthy() && FindUser(db, email.value).Some? ==>
      var u := db.users[FindUser(db, email.value).value];
      && (c == Rejected(LoginError) <==> u.password.None? || !password.Text?)
      && (c == Rejected(WrongCredentials) <==>
            u.password.Some? && password.Text? && !compare(password.s, u.password.value))
    ensures c.Accepted? <==>
      && Truthy(email) && password.Text? && password.s != []
      && FindUser(db, email.value).Some?
      && var u := db.users[FindUser(db, email.value).value];
      && u.password.Some? && compare(password.s, u.password.value)
    ensures c.Accepted? ==> c.index == FindUser(db, email.value).value
    ensures c.Rejected? ==> !c.reply.LoggedIn?
  {
    if !Truthy(email) || !password.Truthy() then Rejected(CredentialsRequired)
    else
      match FindUser(db, email.value)
      case None => Rejected(UserNotFound)
      case Some(i) =>
        if db.users[i].password.None? || !password.Text? then Rejected(LoginError)
        else if !compare(password.s, db.users[i].password.value) then Rejected(WrongCredentials)
        else Accepted(i)
  }

  /** `authenticateUser` as written: once the password matches it calls
      `generateToken`, which the module neither defines nor imports, so the
      ReferenceError lands in the catch block and the reply is a 500. */
  function AuthenticateUserAsWritten(db: Db, jar: Cookies, email: Option<string>, password: Value,
                                     compare: (string, string) -> bool): (r: Exchange<LoginOutcome>)
    ensures !r.out.LoggedIn?
    ensures r.db == db && r.jar == jar
    ensures CheckCredentials(db, email, password, compare).Accepted? ==> r.out == LoginError
  {
    match CheckCredentials(db, email, password, compare)
    case Rejected(o) => Exchange(o, db, jar)
    case Accepted(_) => Exchange(LoginError, db, jar)
  }

  /** The claims `generateToken(user.id, user.email, user.role)` is evidently
      meant to sign. */
  function LoginClaims(u: User): Claims {
    Claims(Some(u.id), Some(u.email), Some(u.role), None)
  }

  /** `authenticateUser` with the token issued as intended: the signed token is
      returned and stored in the `token` cookie. `sign` is the token signer. */
  function AuthenticateUser(db: Db, jar: Cookies, email: Option<string>, password: Value,
                            compare: (string, string) -> bool, sign: Claims -> string): (r: Exchange<LoginOutcome>)
    ensures r.db == db
    ensures r.out.LoggedIn? <==> CheckCredentials(db, email, password, compare).Accepted?
    ensures r.out.LoggedIn? ==>
      && var u := db.users[FindUser(db, email.value).value];
      && u.email == email.value
      && u.password.Some? && password.Text? && compare(password.s, u.password.value)
      && r.out.token == LoginClaims(u)
      && r.jar == jar["token" := sign(r.out.token)]
    ensures !r.out.LoggedIn? ==> r.jar == jar
  {
    match CheckCredentials(db, email, password, compare)
    case Rejected(o) => Exchange(o, db, jar)
    case Accepted(i) =>
      var claims := LoginClaims(db.users[i]);
      Exchange(LoggedIn(claims), db, jar["token" := sign(claims)])
  }

  // ---------------------------------------------------------------------
  // Password reset: the OTP, the verdict and the email travel in cookies

  datatype ForgotOutcome = ForgotEmailRequired | ForgotUserNotFound | ResetOtpIssued(mailed: bool)
  {
    function Status(): int {
      if ResetOtpIssued? then 200 else 400
    }
  }

  /** `forgotPasswordOTPsend`: the OTP goes into the `otp` cookie; it is
      mailed only to a user who has a name. */
  function ForgotPasswordOtpSend(db: Db, jar: Cookies, email: Option<string>, otp: string): (r: Exchange<ForgotOutcome>)
    requires IsGeneratedOtp(otp)
    ensures r.db == db
    ensures r.out.ResetOtpIssued? <==> Truthy(email) && EmailRegistered(db, email.value)
    ensures r.out.ResetOtpIssued? ==>
      && r.jar == jar["otp" := otp]
      && (r.out.mailed <==> Truthy(db.users[FindUser(db, email.value).value].name))
    ensures !r.out.ResetOtpIssued? ==> r.jar == jar
  {
    if !Truthy(email) then Exchange(ForgotEmailRequired, db, jar)
    else
      match FindUser(db, email.value)
      case None => Exchange(ForgotUserNotFound, db, jar)
      case Some(i) => Exchange(ResetOtpIssued(Truthy(db.users[i].name)), db, jar["otp" := otp])
  }

  /** `forgotPasswordOTPsend` with the `email` cookie that `resetPassword`
      reads set alongside the `otp` cookie. */
  function ForgotPasswordOtpSendCorrected(db: Db, jar: Cookies, email: Option<string>, otp: string): (r: Exchange<ForgotOutcome>)
    requires IsGeneratedOtp(otp)
    ensures r.db == db
    ensures r.out == ForgotPasswordOtpSend(db, jar, email, otp).out
    ensures r.out.ResetOtpIssued? ==> r.jar == jar["otp" := otp]["email" := email.value]
    ensures !r.out.ResetOtpIssued? ==> r.jar == jar
  {
    var sent := ForgotPasswordOtpSend(db, jar, email, otp);
    if sent.out.ResetOtpIssued? then sent.(jar := sent.jar["email" := email.value]) else sent
  }

  datatype MatchOutcome = OtpDoesNotMatch | MatchFailed | OtpMatched
  {
    function Status(): int {
      match this
      case OtpMatched => 200
      case MatchFailed => 500
      case OtpDoesNotMatch => 400
    }
  }

  /** `matchForgotPasswordOTP`. A falsy code is refused before any cookie is
      read. Otherwise, without a cookie parser (`parsed` false), reading the
      `otp` cookie throws (500); with one, the `isOtpValid` cookie is set
      exactly when the code is the text of the `otp` cookie (`!==`, so a
      JSON number never matches). */
  function MatchForgotPasswordOtp(parsed: bool, jar: Cookies, otp: Value): (r: (MatchOutcome, Cookies))
    ensures r.0 == MatchFailed <==> otp.Truthy() && !parsed
    ensures r.0 == OtpMatched <==>
      otp.Truthy() && parsed && Cookie(jar, "otp").Some? && otp == Text(Cookie(jar, "otp").value)
    ensures r.0 == OtpMatched ==> r.1 == jar["isOtpValid" := "true"]
    ensures r.0 != OtpMatched ==> r.1 == jar
  {
    if !otp.Truthy() then (OtpDoesNotMatch, jar)
    else if !parsed then (MatchFailed, jar)
    else if Cookie(jar, "otp").None? || otp != Text(Cookie(jar, "otp").value) then (OtpDoesNotMatch, jar)
    else (OtpMatched, jar["isOtpValid" := "true"])
  }

  datatype ResetOutcome = OtpNotValidated | ResetPasswordTooShort | ResetFailed | PasswordReset
  {
    function Status(): int {
      match this
      case PasswordReset => 200
      case ResetFailed => 500
      case _ => 400
    }
  }

  /** `resetPassword`. Without a cookie parser the first cookie read throws
      (500). A missing password (`undefined.length`), a password that is not
      text (bcrypt's hash throws), a missing `email` cookie or an unknown
      email make the handler throw as well (500). On success the three reset
      cookies are cleared. */
  function ResetPassword(db: Db, parsed: bool, jar: Cookies, password: Value, hash: string -> string): (r: Exchange<ResetOutcome>)
    ensures !parsed ==> r.out == ResetFailed
    ensures r.out == OtpNotValidated <==> parsed && !Truthy(Cookie(jar, "isOtpValid"))
    ensures r.out == ResetPasswordTooShort <==>
      parsed && Truthy(Cookie(jar, "isOtpValid")) && password.Text? && |password.s| < MinPasswordLength
    ensures !r.out.PasswordReset? ==> r.db == db && r.jar == jar
    ensures r.out.PasswordReset? <==>
      && parsed && Truthy(Cookie(jar, "isOtpValid"))
      && password.Text? && |password.s| >= MinPasswordLength
      && "email" in jar && EmailRegistered(db, jar["email"])
    ensures r.out.PasswordReset? ==>
      && r.jar == jar - {"otp", "email", "isOtpValid"}
      && r.db == db.(users := r.db.users)
      && |r.db.users| == |db.users|
      && (forall i :: 0 <= i < |db.users| && db.users[i].email != jar["email"] ==> r.db.users[i] == db.users[i])
      && (forall i :: 0 <= i < |db.users| && db.users[i].email == jar["email"] ==>
            r.db.users[i] == db.users[i].(password := Some(hash(password.s))))
  {
    if !parsed then Exchange(ResetFailed, db, jar)
    else if !Truthy(Cookie(jar, "isOtpValid")) then Exchange(OtpNotValidated, db, jar)
    else if password.Text? && |password.s| < MinPasswordLength then Exchange(ResetPasswordTooShort, db, jar)
    else if !password.Text? then Exchange(ResetFailed, db, jar)
    else if "email" !in jar || FindUser(db, jar["email"]).None? then Exchange(ResetFailed, db, jar)
    else
      var email := jar["email"];
      var hashed := hash(password.s);
      Exchange(PasswordReset,
               db.(users := Table.Update(db.users, WithEmail(email), (u: User) => u.(password := Some(hashed)))),
               jar - {"otp", "email", "isOtpValid"})
  }
}

=== FILE: registration_proofs.dfy ===
/** Properties of the registration state machine that relate several steps
    or hold of every reachable store. */
module RegistrationProofs {
  import opened Common
  import opened Store
  import opened Registration
  import Table

  /** Every stored password belongs to a user who also has a name: the
      registration flow only ever sets the two together. */
  predicate PasswordImpliesName(db: Db) {
    forall i :: 0 <= i < |db.users| && db.users[i].password.Some? ==> db.users[i].name.Some?
  }

  // ---------------------------------------------------------------------
  // The invariant is kept by every registration step

  lemma Step1KeepsConsistent(db: Db, email: Option<string>, now: int, otp: string)
    requires Consistent(db) && IsGeneratedOtp(otp)
    ensures Consistent(RegisterUserStep1(db, email, now, otp).db)
  {
    var r := RegisterUserStep1(db, email, now, otp);
    if r.out.Issued() {
      forall e | e in r.db.temps
        ensures !EmailRegistered(r.db, e) && IsGeneratedOtp(r.db.temps[e].otp)
      {
        if e != email.value {
          assert e in db.temps;
        }
      }
    }
  }

  /** Appending a row whose email is new leaves every other email's
      registration status as it was. */
  lemma {:induction false} AppendUserEmails(db: Db, u: User, e: string)
    ensures EmailRegistered(db.(users := db.users + [u]), e) <==> EmailRegistered(db, e) || u.email == e
  {
    var users := db.users + [u];
    if EmailRegistered(db, e) {
      var i :| 0 <= i < |db.users| && db.users[i].email == e;
      assert users[i] == db.users[i];
    }
    if u.email == e {
      assert users[|db.users|] == u;
    }
    if EmailRegistered(db.(users := users), e) {
      var i :| 0 <= i < |users| && users[i].email == e;
      if i < |db.users| {
        assert users[i] == db.users[i];
      }
    }
  }

  lemma VerifyKeepsConsistent(db: Db, otp: Value, email: Option<string>, now: int)
    requires Consistent(db)
    ensures Consistent(VerifyOtp(db, otp, email, now).db)
  {
    var r := VerifyOtp(db, otp, email, now);
    if r.out.OtpVerified? {
      var e := email.value;
      var u := NewUser(db.nextId, e);
      assert r.db.users == db.users + [u];
      forall x | x in r.db.temps
        ensures !EmailRegistered(r.db, x)
      {
        AppendUserEmails(db, u, x);
      }
      forall i, j | 0 <= i < j < |r.db.users|
        ensures r.db.users[i].email != r.db.users[j].email
      {
        if j == |db.users| {
          assert r.db.users[i] == db.users[i];
        }
      }
    }
  }

  /** Updating rows without touching ids or emails keeps the email index. */
  lemma {:induction false} UpdateKeepsEmails(db: Db, p: User -> bool, f: User -> User, e: string)
    requires forall u: User :: f(u).email == u.email && f(u).id == u.id
    ensures EmailRegistered(db.(users := Table.Update(db.users, p, f)), e) <==> EmailRegistered(db, e)
  {
    var users := Table.Update(db.users, p, f);
    if EmailRegistered(db, e) {
      var i :| 0 <= i < |db.users| && db.users[i].email == e;
      assert users[i].email == e;
    }
    if EmailRegistered(db.(users := users), e) {
      var i :| 0 <= i < |users| && users[i].email == e;
      assert db.users[i].email == e;
    }
  }

  lemma Step3KeepsConsistent(
    db: Db, authorization: Option<string>, name: Option<string>, password: Value,
    verify: string -> Option<Claims>, hash: string -> string)
    requires Consistent(db)
    ensures Consistent(RegisterUserStep3(db, authorization, name, password, verify, hash).db)
  {
    var r := RegisterUserStep3(db, authorization, name, password, verify, hash);
    if r.out.Registered? {
      var email := verify(HeaderToken(authorization).value).value.email.value;
      var hashed := hash(password.s);
      var f := (u: User) => u.(name := name, password := Some(hashed));
      assert r.db == db.(users := Table.Update(db.users, WithEmail(email), f));
      forall x | x in r.db.temps ensures !EmailRegistered(r.db, x) {
        UpdateKeepsEmails(db, WithEmail(email), f, x);
      }
    }
  }

  // ---------------------------------------------------------------------
  // The lifecycle NoAccount -> Pending -> Verified -> Complete

  /** Step 1 files a pending record only for an email with no account or an
      expired pending record, and leaves every other email where it was. */
  lemma Step1Phases(db: Db, email: Option<string>, now: int, otp: string, other: string)
    requires IsGeneratedOtp(otp)
    ensures var r := RegisterUserStep1(db, email, now, otp);
      && (r.out.Issued() ==>
            && PhaseOf(db, email.value) in {NoAccount, Pending}
            && PhaseOf(r.db, email.value) == Pending)
      && (r.out.Issued() && other != email.value ==> PhaseOf(r.db, other) == PhaseOf(db, other))
  {
  }

  /** A successful OTP check turns a pending email into a verified account
      with no password yet, and leaves every other email where it was. */
  lemma VerifyPhases(db: Db, otp: Value, email: Option<string>, now: int, other: string)
    requires Valid(db)
    ensures var r := VerifyOtp(db, otp, email, now);
      && (r.out.OtpVerified? ==>
            && PhaseOf(db, email.value) == Pending
            && PhaseOf(r.db, email.value) == Verified)
      && (r.out.OtpVerified? && other != email.value ==> PhaseOf(r.db, other) == PhaseOf(db, other))
  {
    var r := VerifyOtp(db, otp, email, now);
    if r.out.OtpVerified? {
      var u := NewUser(db.nextId, email.value);
      AppendUserEmails(db, u, email.value);
      var k := FindUser(r.db, email.value).value;
      assert r.db.users[|db.users|] == u;
      if other != email.value {
        AppendUserEmails(db, u, other);
        match FindUser(db, other)
        case None =>
        case Some(i) =>
          assert r.db.users[i] == db.users[i];
          var j := FindUser(r.db, other).value;
          if j < |db.users| {
            assert r.db.users[j] == db.users[j];
          }
      }
    }
  }

  /** A successful step 3 completes the profile of the token's email. */
  lemma Step3Completes(
    db: Db, authorization: Option<string>, name: Option<string>, password: Value,
    verify: string -> Option<Claims>, hash: string -> string)
    ensures var r := RegisterUserStep3(db, authorization, name, password, verify, hash);
      r.out.Registered? ==>
        var email := verify(HeaderToken(authorization).value).value.email.value;
        && PhaseOf(db, email) in {Verified, Complete}
        && PhaseOf(r.db, email) == Complete
  {
    var r := RegisterUserStep3(db, authorization, name, password, verify, hash);
    if r.out.Registered? {
      var email := verify(HeaderToken(authorization).value).value.email.value;
      var k := FindUser(r.db, email).value;
      assert r.db.users[k].email == email;
      assert db.users[k].email == email;
    }
  }

  /** Step 1 followed by the right code within fifteen minutes registers
      exactly one user for the email, holding the email and nothing else. */
  lemma {:induction false} RegisterThenVerify(db: Db, email: string, now: int, later: int, otp: string)
    requires email != "" && !EmailRegistered(db, email) && email !in db.temps
    requires IsGeneratedOtp(otp)
    requires now <= later <= now + OtpLifetimeMs
    ensures var s1 := RegisterUserStep1(db, Some(email), now, otp);
      var s2 := VerifyOtp(s1.db, Text(otp), Some(email), later);
      && s1.out == OtpSent(otp)
      && s2.out.OtpVerified?
      && |s2.db.users| == |db.users| + 1
      && (forall i :: 0 <= i < |s2.db.users| ==> (s2.db.users[i].email == email <==> i == |db.users|))
      && s2.db.users[|db.users|].password.None?
      && email !in s2.db.temps
  {
    var s1 := RegisterUserStep1(db, Some(email), now, otp);
    var s2 := VerifyOtp(s1.db, Text(otp), Some(email), later);
    assert s1.db.users == db.users;
    forall i | 0 <= i < |db.users| ensures s2.db.users[i].email != email {
      assert s2.db.users[i] == db.users[i];
    }
  }

  /** The same flow with a wrong code is answered "Invalid OTP" and changes
      nothing. */
  lemma {:induction false} RegisterThenWrongCode(db: Db, email: string, now: int, later: int, otp: string, guess: string)
    requires email != "" && !EmailRegistered(db, email) && email !in db.temps
    requires IsGeneratedOtp(otp) && guess != "" && guess != otp
    requires now <= later <= now + OtpLifetimeMs
    ensures var s1 := RegisterUserStep1(db, Some(email), now, otp);
      var s2 := VerifyOtp(s1.db, Text(guess), Some(email), later);
      s2.out == OtpMismatch && s2.db == s1.db
  {
  }

  // ---------------------------------------------------------------------
  // Login

  lemma Step1KeepsPasswordsNamed(db: Db, email: Option<string>, now: int, otp: string)
    requires PasswordImpliesName(db) && IsGeneratedOtp(otp)
    ensures PasswordImpliesName(RegisterUserStep1(db, email, now, otp).db)
  {
  }

  lemma VerifyKeepsPasswordsNamed(db: Db, otp: Value, email: Option<string>, now: int)
    requires PasswordImpliesName(db)
    ensures PasswordImpliesName(VerifyOtp(db, otp, email, now).db)
  {
    var r := VerifyOtp(db, otp, email, now);
    if r.out.OtpVerified? {
      forall i | 0 <= i < |r.db.users| && r.db.users[i].password.Some?
        ensures r.db.users[i].name.Some?
      {
        assert i < |db.users|;
        assert r.db.users[i] == db.users[i];
      }
    }
  }

  lemma Step3KeepsPasswordsNamed(
    db: Db, authorization: Option<string>, name: Option<string>, password: Value,
    verify: string -> Option<Claims>, hash: string -> string)
    requires PasswordImpliesName(db)
    ensures PasswordImpliesName(RegisterUserStep3(db, authorization, name, password, verify, hash).db)
  {
  }

  /** In a store the registration flow produced, only a completed profile can
      log in. */
  lemma LoginOnlyWhenComplete(db: Db, jar: Cookies, email: Option<string>, password: Value,
                              compare: (string, string) -> bool, sign: Claims -> string)
    requires PasswordImpliesName(db)
    ensures AuthenticateUser(db, jar, email, password, compare, sign).out.LoggedIn? ==>
      PhaseOf(db, email.value) == Complete
  {
  }

  /** A user fresh from OTP verification has no password and cannot log in,
      whatever the password oracle says. */
  lemma VerifiedCannotLogIn(db: Db, otp: Value, email: Option<string>, now: int,
                            jar: Cookies, password: Value,
                            compare: (string, string) -> bool, sign: Claims -> string)
    requires Valid(db)
    ensures var r := VerifyOtp(db, otp, email, now);
      r.out.OtpVerified? ==> !AuthenticateUser(r.db, jar, email, password, compare, sign).out.LoggedIn?
  {
    var r := VerifyOtp(db, otp, email, now);
    if r.out.OtpVerified? {
      VerifyPhases(db, otp, email, now, email.value);
      AppendUserEmails(db, NewUser(db.nextId, email.value), email.value);
      var k := FindUser(r.db, email.value).value;
      assert k == |db.users|;
    }
  }

  /** Correct credentials are answered with a 500 by the code as written,
      where the evidently intended handler logs the user in. */
  lemma LoginAsWrittenRejectsCorrectCredentials(db: Db, jar: Cookies, email: Option<string>, password: Value,
                                                compare: (string, string) -> bool, sign: Claims -> string)
    requires CheckCredentials(db, email, password, compare).Accepted?
    ensures AuthenticateUserAsWritten(db, jar, email, password, compare).out.Status() == 500
    ensures AuthenticateUser(db, jar, email, password, compare, sign).out.Status() == 200
  {
  }

  /** A concrete instance: one completed user, the right password, and the
      as-written login answers 500. */
  lemma LoginAsWrittenCounterexample()
    ensures var u := User(1, "a@x.com", Some("A"), Some("hash"), USER, DefaultRole, Active, 0, None);
      var db := Db([u], map[], [], [], [], [], [], {}, 2);
      var compare := (p: string, h: string) => p == "password1" && h == "hash";
      AuthenticateUserAsWritten(db, map[], Some("a@x.com"), Text("password1"), compare).out == LoginError
  {
    var u := User(1, "a@x.com", Some("A"), Some("hash"), USER, DefaultRole, Active, 0, None);
    var db := Db([u], map[], [], [], [], [], [], {}, 2);
    assert FindUser(db, "a@x.com") == Some(0);
  }

  /** A client that sends the mailed code as a JSON number is told "Invalid
      OTP" however fast it answers: `!==` never equates a number with the
      stored text. */
  lemma {:induction false} RegisterThenNumericCode(db: Db, email: string, now: int, later: int, otp: string, code: real)
    requires email != "" && !EmailRegistered(db, email) && email !in db.temps
    requires IsGeneratedOtp(otp) && code != 0.0
    requires now <= later <= now + OtpLifetimeMs
    ensures var s1 := RegisterUserStep1(db, Some(email), now, otp);
      var s2 := VerifyOtp(s1.db, Number(code), Some(email), later);
      s2.out == OtpMismatch && s2.db == s1.db
  {
  }

  /** The token OTP verification hands out completes the registration:
      step 3 with that token, a name and an eight-character password
      registers the new row and leaves the email complete. */
  lemma VerifyThenComplete(db: Db, otp: Value, email: Option<string>, now: int,
                           authorization: Option<string>, name: Option<string>, password: string,
                           verify: string -> Option<Claims>, hash: string -> string)
    requires Valid(db)
    requires VerifyOtp(db, otp, email, now).out.OtpVerified?
    requires HeaderClaims(authorization, verify) == Some(VerifyOtp(db, otp, email, now).out.token)
    requires Truthy(name) && |password| >= MinPasswordLength
    ensures var s2 := VerifyOtp(db, otp, email, now);
      var s3 := RegisterUserStep3(s2.db, authorization, name, Text(password), verify, hash);
      && s3.out == Registered(db.nextId)
      && PhaseOf(s3.db, email.value) == Complete
  {
    var s2 := VerifyOtp(db, otp, email, now);
    var u := NewUser(db.nextId, email.value);
    AppendUserEmails(db, u, email.value);
    assert s2.db.users[|db.users|] == u;
    var k := FindUser(s2.db, email.value).value;
    assert k == |db.users|;
    var s3 := RegisterUserStep3(s2.db, authorization, name, Text(password), verify, hash);
    var j := FindUser(s3.db, email.value).value;
    assert s3.db.users[j].email == email.value;
    assert s2.db.users[j].email == email.value;
  }

  /** The reset flow as the application is wired: no cookie parser runs, so
      once a code is submitted the match step throws, and the reset step
      throws on its first cookie read, whatever the client's cookies and
      password. Nothing is written. */
  lemma ResetFlowAsWired(db: Db, jar: Cookies, email: string, otp: string, password: Value,
                         hash: string -> string)
    requires IsGeneratedOtp(otp) && email != [] && EmailRegistered(db, email)
    ensures var sent := ForgotPasswordOtpSend(db, jar, Some(email), otp);
      var matched := MatchForgotPasswordOtp(false, sent.jar, Text(otp));
      var reset := ResetPassword(sent.db, false, matched.1, password, hash);
      && sent.out.ResetOtpIssued?
      && matched.0.Status() == 500
      && reset.out.Status() == 500
      && reset.db == db
  {
  }

  /** The reset flow with a cookie parser mounted: the issued OTP matches,
      but no handler ever sets the `email` cookie, so starting from a jar
      without one the reset itself always fails with a 500. */
  lemma ResetFlowNeedsEmailCookie(db: Db, jar: Cookies, email: string, otp: string, password: string,
                                  hash: string -> string)
    requires IsGeneratedOtp(otp) && email != [] && EmailRegistered(db, email)
    requires "email" !in jar
    requires |password| >= MinPasswordLength
    ensures var sent := ForgotPasswordOtpSend(db, jar, Some(email), otp);
      var matched := MatchForgotPasswordOtp(true, sent.jar, Text(otp));
      && sent.out.ResetOtpIssued?
      && matched.0 == OtpMatched
      && ResetPassword(sent.db, true, matched.1, Text(password), hash).out == ResetFailed
  {
  }

  /** With a cookie parser mounted, `resetPassword` trusts the cookies it is
      sent: a client that sets `isOtpValid` and `email` itself resets any
      registered user's password without ever seeing an OTP. */
  lemma ForgedCookiesResetPassword(db: Db, email: string, password: string, hash: string -> string)
    requires EmailRegistered(db, email)
    requires |password| >= MinPasswordLength
    ensures var r := ResetPassword(db, true, map["isOtpValid" := "true", "email" := email], Text(password), hash);
      && r.out == PasswordReset
      && r.db.users[FindUser(db, email).value].password == Some(hash(password))
  {
  }

  /** With a cookie parser mounted and the email cookie set, the reset flow
      completes: the OTP sent is the OTP matched, the user's password becomes
      the new one, and the reset cookies are cleared. */
  lemma ResetFlowSucceeds(db: Db, jar: Cookies, email: string, otp: string, password: string,
                          hash: string -> string)
    requires IsGeneratedOtp(otp) && email != [] && EmailRegistered(db, email)
    requires |password| >= MinPasswordLength
    ensures var sent := ForgotPasswordOtpSendCorrected(db, jar, Some(email), otp);
      var matched := MatchForgotPasswordOtp(true, sent.jar, Text(otp));
      var reset := ResetPassword(sent.db, true, matched.1, Text(password), hash);
      && matched.0 == OtpMatched
      && reset.out == PasswordReset
      && reset.db.users[FindUser(db, email).value].password == Some(hash(password))
      && "otp" !in reset.jar && "email" !in reset.jar && "isOtpValid" !in reset.jar
  {
    var sent := ForgotPasswordOtpSendCorrected(db, jar, Some(email), otp);
    assert sent.jar["otp"] == otp;
  }
}

=== FILE: store.dfy ===
/** The relational store the handlers read and write, as immutable tables,
    plus the claims a signed token carries and the cookies a client holds.
    Ids are handed out by one counter, `nextId`. */
module Store {
  import opened Common
  import Calendar
  import Table

  type Id = nat

  /** The `type` column of a user row. */
  datatype AccountType = USER | ADMIN

  /** The `status` column of a user row. */
  datatype AccountStatus = Active | Suspended

  /** Column defaults the user table applies when a create leaves them out. */
  const DefaultRole: string := "normal"
  const PremiumRole: string := "premium"

  /** A user or admin row. `password` holds a bcrypt hash, or nothing for a
      user who has verified an OTP but not yet completed the profile. */
  datatype User = User(
    id: Id,
    email: string,
    name: Option<string>,
    password: Option<string>,
    kind: AccountType,
    role: string,
    status: AccountStatus,
    isSubscribed: int,
    avatar: Option<string>)

  /** A pending registration (the `temp` table, keyed by email). */
  datatype Temp = Temp(otp: string, expiresAt: int)

  /** The user-supplied descriptive columns of an item: text columns as
      given, the two dates and the mileage converted. */
  datatype ItemFields = ItemFields(
    name: Option<string>,
    brand: Option<string>,
    model: Option<string>,
    vin: Option<string>,
    purchaseDate: Option<Calendar.Date>,
    totalMileage: Option<real>,
    lastServiceDate: Option<Calendar.Date>,
    lastServiceName: Option<string>,
    category: Option<string>)

  datatype Item = Item(
    id: Id,
    userId: Id,
    fields: ItemFields,
    isSubscribed: int,
    price: real,
    imageUrl: Option<string>,
    serviceIntervals: Option<seq<string>>,
    forumSuggestions: Option<seq<string>>)

  /** A purchasable plan (the `services` table). */
  datatype Service = Service(id: Id, price: real, plan: string)

  datatype Subscription = Subscription(
    id: Id,
    serviceId: Id,
    userId: Id,
    plan: Option<string>,
    startDate: Calendar.Date,
    endDate: Calendar.Date,
    status: string,
    price: real)

  datatype PaymentTransaction = PaymentTransaction(
    id: Id,
    userId: Id,
    price: int,
    currency: string,
    status: string,
    paymentMethod: string,
    subscriptionId: Id)

  /** A support message; `status` is "Pending" or "Solved" in practice. */
  datatype Mail = Mail(id: Id, status: string)

  /** The whole store. `uploads` is the set of file names in the upload
      directory. */
  datatype Db = Db(
    users: seq<User>,
    temps: map<string, Temp>,
    items: seq<Item>,
    services: seq<Service>,
    subscriptions: seq<Subscription>,
    transactions: seq<PaymentTransaction>,
    mails: seq<Mail>,
    uploads: set<string>,
    nextId: Id)

  /** The claims of a signed token; a missing claim is `None`. */
  datatype Claims = Claims(
    userId: Option<Id>,
    email: Option<string>,
    role: Option<string>,
    kind: Option<string>)

  /** How Prisma reads a string given where the id column is expected (a
      route parameter, a payment provider's metadata value): the key the
      string denotes, or nothing when Prisma rejects it and the call throws.
      An integer id column rejects every string; a text column takes it as
      it is. The schema is not part of this model, so the reading is a
      parameter. */
  type KeyReader = string -> Option<Id>

  /** The key a truthy string field denotes, if Prisma accepts it. */
  function ReadKey(field: Option<string>, key: KeyReader): (k: Option<Id>)
    ensures k.Some? ==> Truthy(field) && key(field.value) == k
    ensures Truthy(field) ==> k == key(field.value)
  {
    if Truthy(field) then key(field.value) else None
  }

  /** The cookies a client holds between requests. A handler sees them in
      `req.cookies` only when a cookie parser mounted ahead of the routes has
      filled it in; otherwise `req.cookies` is undefined and reading a cookie
      from it throws. The handlers that read cookies therefore take a flag
      `parsed`. app.js mounts no cookie parser, so as the application is
      wired the flag is false. */
  type Cookies = map<string, string>

  /** Reads a cookie. */
  function Cookie(jar: Cookies, name: string): Option<string> {
    if name in jar then Some(jar[name]) else None
  }

  /** What a handler answered and the store it left behind. */
  datatype Step<+O> = Step(out: O, db: Db)

  function WithEmail(email: string): User -> bool {
    (u: User) => u.email == email
  }

  function WithId(id: Id): User -> bool {
    (u: User) => u.id == id
  }

  function WithIdAndKind(id: Id, kind: AccountType): User -> bool {
    (u: User) => u.id == id && u.kind == kind
  }

  function WithEmailAndKind(email: string, kind: AccountType): User -> bool {
    (u: User) => u.email == email && u.kind == kind
  }

  function OfKind(kind: AccountType): User -> bool {
    (u: User) => u.kind == kind
  }

  /** `findUnique({ where: { id } })` on the user table. */
  function FindUserById(db: Db, id: Id): (r: Option<nat>)
    ensures r.Some? ==> r.value < |db.users| && db.users[r.value].id == id
    ensures r.None? <==> forall i :: 0 <= i < |db.users| ==> db.users[i].id != id
  {
    Table.Find(db.users, WithId(id))
  }

  /** Some user row has this email. */
  predicate EmailRegistered(db: Db, email: string) {
    exists i :: 0 <= i < |db.users| && db.users[i].email == email
  }

  /** The unique constraints and the id counter: every id below `nextId`,
      user ids distinct, user emails distinct. */
  predicate Valid(db: Db) {
    && (forall i :: 0 <= i < |db.users| ==> db.users[i].id < db.nextId)
    && (forall i :: 0 <= i < |db.items| ==> db.items[i].id < db.nextId)
    && (forall i :: 0 <= i < |db.subscriptions| ==> db.subscriptions[i].id < db.nextId)
    && (forall i :: 0 <= i < |db.transactions| ==> db.transactions[i].id < db.nextId)
    && (forall i, j :: 0 <= i < j < |db.users| ==> db.users[i].id != db.users[j].id)
    && (forall i, j :: 0 <= i < j < |db.users| ==> db.users[i].email != db.users[j].email)
  }
}

=== FILE: table.dfy ===
/** A database table as an ordered sequence of rows, with the three queries
    the handlers issue against it: find the first row matching a `where`
    clause, find all of them, and update the matching rows. */
module Table {
  import opened Common

  /** `findUnique`/`findFirst`: the position of the first row satisfying `p`. */
  function Find<T>(rows: seq<T>, p: T -> bool): (r: Option<nat>)
    ensures r.Some? ==> r.value < |rows| && p(rows[r.value])
    ensures r.Some? ==> forall j :: 0 <= j < r.value ==> !p(rows[j])
    ensures r.None? <==> forall j :: 0 <= j < |rows| ==> !p(rows[j])
  {
    if |rows| == 0 then None
    else if p(rows[0]) then Some(0)
    else
      match Find(rows[1..], p)
      case None => None
      case Some(k) => Some(k + 1)
  }

  /** `findMany`: the rows satisfying `p`, in table order. */
  function Filter<T>(rows: seq<T>, p: T -> bool): (r: seq<T>)
    ensures |r| <= |rows|
    ensures forall i :: 0 <= i < |r| ==> r[i] in rows && p(r[i])
    ensures forall i :: 0 <= i < |rows| && p(rows[i]) ==> rows[i] in r
    ensures forall i {:trigger multiset(r)[rows[i]]} :: 0 <= i < |rows| ==>
      multiset(r)[rows[i]] == if p(rows[i]) then multiset(rows)[rows[i]] else 0
  {
    if |rows| == 0 then []
    else
      var rest := Filter(rows[1..], p);
      FilterStepCounts(rows, p, rest);
      if p(rows[0]) then [rows[0]] + rest else rest
  }

  /** One step of Filter keeps each row's multiplicity: all of it when the
      row matches, none of it otherwise. */
  lemma FilterStepCounts<T>(rows: seq<T>, p: T -> bool, rest: seq<T>)
    requires |rows| > 0
    requires forall i :: 0 <= i < |rest| ==> rest[i] in rows[1..]
    requires forall i :: 0 <= i < |rows| - 1 ==>
      multiset(rest)[rows[1..][i]] == if p(rows[1..][i]) then multiset(rows[1..])[rows[1..][i]] else 0
    ensures forall i :: 0 <= i < |rows| ==>
      multiset(if p(rows[0]) then [rows[0]] + rest else rest)[rows[i]]
        == if p(rows[i]) then multiset(rows)[rows[i]] else 0
  {
    var r := if p(rows[0]) then [rows[0]] + rest else rest;
    assert rows == [rows[0]] + rows[1..];
    assert multiset(rows) == multiset{rows[0]} + multiset(rows[1..]);
    assert multiset(r) == (if p(rows[0]) then multiset{rows[0]} else multiset{}) + multiset(rest);
    forall i | 0 <= i < |rows|
      ensures multiset(r)[rows[i]] == if p(rows[i]) then multiset(rows)[rows[i]] else 0
    {
      var x := rows[i];
      if x in rows[1..] {
        var j :| 0 <= j < |rows[1..]| && rows[1..][j] == x;
      } else {
        assert x !in rest;
      }
    }
  }

  /** `update`/`updateMany`: apply `f` to every row satisfying `p`. */
  function Update<T>(rows: seq<T>, p: T -> bool, f: T -> T): (r: seq<T>)
    ensures |r| == |rows|
    ensures forall i :: 0 <= i < |rows| && p(rows[i]) ==> r[i] == f(rows[i])
    ensures forall i :: 0 <= i < |rows| && !p(rows[i]) ==> r[i] == rows[i]
  {
    seq(|rows|, i requires 0 <= i < |rows| => if p(rows[i]) then f(rows[i]) else rows[i])
  }

  /** A filter is empty exactly when no row matches: the partner of Find. */
  lemma FilterEmptyIffNoMatch<T>(rows: seq<T>, p: T -> bool)
    ensures Filter(rows, p) == [] <==> Find(rows, p).None?
  {
    if Find(rows, p).Some? {
      var k := Find(rows, p).value;
      assert rows[k] in Filter(rows, p);
    }
    if Filter(rows, p) != [] {
      var j :| 0 <= j < |rows| && rows[j] == Filter(rows, p)[0];
      assert p(rows[j]);
    }
  }

  /** `count`: the number of rows satisfying `p`. */
  function Count<T>(rows: seq<T>, p: T -> bool): (n: nat)
    ensures n <= |rows|
    ensures n == 0 <==> forall i :: 0 <= i < |rows| ==> !p(rows[i])
  {
    if |rows| == 0 then 0
    else (if p(rows[0]) then 1 else 0) + Count(rows[1..], p)
  }

  /** Counting the matches and listing them agree. */
  lemma {:induction false} CountIsFilterLength<T>(rows: seq<T>, p: T -> bool)
    ensures Count(rows, p) == |Filter(rows, p)|
  {
    if |rows| > 0 {
      CountIsFilterLength(rows[1..], p);
    }
  }

  /** The positions of the rows satisfying `p`. */
  ghost function Positions<T>(rows: seq<T>, p: T -> bool): set<int> {
    set i | 0 <= i < |rows| && p(rows[i])
  }

  /** Counting the matches is counting the positions that match. */
  lemma CountIsMatchingPositions<T>(rows: seq<T>, p: T -> bool)
    ensures Count(rows, p) == |Positions(rows, p)|
  {
    CountFrom(rows, p, 0);
    assert rows[0..] == rows;
  }

  /** The same, for the rows from position `k` on. */
  lemma {:induction false} CountFrom<T>(rows: seq<T>, p: T -> bool, k: nat)
    requires k <= |rows|
    ensures Count(rows[k..], p) == |set i | k <= i < |rows| && p(rows[i])|
    decreases |rows| - k
  {
    if k < |rows| {
      CountFrom(rows, p, k + 1);
      assert rows[k..][1..] == rows[k + 1..];
      var here := set i | k <= i < |rows| && p(rows[i]);
      var later := set i | k + 1 <= i < |rows| && p(rows[i]);
      if p(rows[k]) {
        assert here == {k} + later;
      } else {
        assert here == later;
      }
    }
  }

  /** Dropping rows keeps a key column pairwise distinct. */
  lemma {:induction false} FilterKeepsDistinct<T, K>(rows: seq<T>, p: T -> bool, key: T -> K)
    requires forall i, j :: 0 <= i < j < |rows| ==> key(rows[i]) != key(rows[j])
    ensures forall i, j :: 0 <= i < j < |Filter(rows, p)| ==> key(Filter(rows, p)[i]) != key(Filter(rows, p)[j])
  {
    if |rows| > 0 {
      var rest := Filter(rows[1..], p);
      FilterKeepsDistinct(rows[1..], p, key);
      if p(rows[0]) {
        forall k | 0 <= k < |rest|
          ensures key(rows[0]) != key(rest[k])
        {
          var j :| 0 <= j < |rows[1..]| && rows[1..][j] == rest[k];
          assert rows[j + 1] == rest[k];
        }
        assert Filter(rows, p) == [rows[0]] + rest;
      }
    }
  }
}
